=== FILE: README.md ===
# negotiator — a Dafny model of HTTP content negotiation

The Go package `negotiator` answers four questions about an HTTP request. It reads one request header for each, compares it with the values the server can offer (the *candidates*), and returns the candidates the client will take, best first:

| Go method | header | model |
|---|---|---|
| `ParseMediaTypes` | `Accept` | `media.dfy`, module `Media` |
| `ParseCharsets` | `Accept-Charset` | `charsets.dfy`, module `Charsets` |
| `ParseLanguages` | `Accept-Language` | `languages.dfy`, module `Languages` |
| `ParseEncoding` | `Accept-Encoding` | `encodings.dfy`, module `Encodings` |

All four headers are weighted preference lists, as in section 5.3 of RFC 7231. Every pipeline runs the same stages:

1. It splits the header on `,`.
2. It reads each piece as a name with a quality (`q`). For media types it also reads parameters.
3. It keeps the pieces that a candidate admits.
4. It sorts them by quality.
5. It returns their names.

The four files differ in every stage, so each has its own module and its own contracts. They share these modules:

- `gostrings.dfy` (`GoStrings`) models the Go `strings` functions the package calls: `TrimSpace`, `Split`, `SplitN(…, 2)`, `ToLower` and `EqualFold`. The quote test of media.go:185, written with `strings.HasPrefix`/`HasSuffix`, is written out inline in `Media.SplitKeyValuePairAsWritten`. `Media.IsQuoted` is the corrected test, which also demands at least two characters (see "## Findings"). `Index` and `Join` are helpers of the model: `Index` defines where `Split` cuts, and `Join` states that `Split` loses nothing and builds the multi-parameter candidates of `Media.MatchCandidateParameters`. The module also declares `FloatParser`, the type of `strconv.ParseFloat`.
- `sorting.dfy` (`Sorting`) models `sort.SliceStable`. `SortBy` is a stable insertion sort driven by the caller's `less`. It is proved to be a permutation, to be ordered when `less` is a strict weak order, and to be stable. The in-place method `SortInPlace` is proved to compute exactly `SortBy`.
- `wrappers.dfy` holds `Option` and `Result`.

**How the model is built.** Each Go function that loops becomes a Dafny `method` with the same loop. Its `ensures` equates its result with a specification function, for example `SplitCharsets` with `CharsetEntries` or `ParseCharsets` with `NegotiateCharsets`. The properties the package promises are then proved as lemmas about those functions.

**Qualities.** A quality is a `real`. `strconv.ParseFloat` is a parameter `parseFloat: string -> Option<real>`, so every result holds for any parser. The code only ever uses `>`, `> 0`, `!=` and the default `1` on qualities.

**Where the code and the package's tests disagree, the model follows the code:**

- An empty `Accept` header is read as `*/*`, and `*` is only a wildcard on the candidate side. So an empty header with a concrete candidate `text/html` returns nothing (`EmptyAcceptConcreteCandidate`). With no candidates every entry of positive quality is accepted and returned by name: an empty header gives `["*/*"]` (`EmptyAcceptNoCandidates`), and so does the header `*/*` itself.
- `Accept-Charset`:
  - there is no wildcard: a `*` entry matches only a literal `*` candidate;
  - duplicates are not removed;
  - every output is the spelling of the first candidate that matches up to case.
- `Accept-Language`:
  - one unparsable quality fails the whole header;
  - names are compared exactly, with case;
  - the sort is `sort.Slice`, which is not stable.
- `Accept-Encoding`:
  - entries with `q=0` are kept, because nothing filters on quality;
  - names keep the header's spelling;
  - the quality text, which runs from the first `;q=` to the next `;q=` or the end of the piece, is parsed without trimming;
  - only an empty header returns the candidates unchanged.

## Model

| member | source | states |
|---|---|---|
| GoStrings.TrimSpace | media.go:66 | the result has no leading or trailing white space |
| GoStrings.Split | media.go:50 | `strings.Split` with a non-empty separator yields at least one piece |
| GoStrings.SplitJoins | media.go:50 | joining the pieces of `Split` with the separator gives the input back |
| GoStrings.SplitPiecesFree | media.go:50 | no piece of `Split` contains the separator |
| GoStrings.SplitManyIffContains | language.go:59-60 | `Split` yields more than one piece iff the separator occurs |
| GoStrings.SplitN2Spec | media.go:66 | `SplitN(s, sep, 2)` yields the text before the first separator and, if there is one, the rest after it |
| GoStrings.SplitN2 | media.go:66 | `strings.SplitN(s, sep, 2)` yields one or two pieces |
| GoStrings.ToLower | encoding.go:66 | the result has the input's length and each character lower-cased |
| GoStrings.EqualFold | charset.go:97 | equality up to ASCII letter case holds iff the lower-cased strings are equal, so charset.go:97 and encoding.go:66-71 compare alike |
| Sorting.SortByPermutes | media.go:144-148 | sorting keeps exactly the same elements with the same multiplicities |
| Sorting.SortBy | media.go:144-148 | sorting keeps the length of its input |
| Sorting.SortBySorted | media.go:144-148 | for a strict weak order `less`, no element of the result must come before an element to its left |
| Sorting.SortByStable | media.go:145 | elements in the same class (same quality) keep their input order |
| Sorting.SortInPlace | media.go:144-148 | the array ends up holding `SortBy` of its old contents |
| Media.SplitKeyValuePair | media.go:175-191 | with no `=` the pair is `("", "")`; otherwise the key is trimmed and holds no `=` (corrected version, see Findings) |
| Media.SplitKeyValuePairAsWritten | media.go:175-191 | the code as written, None where it panics; wherever it returns, it returns what `SplitKeyValuePair` returns |
| Media.LoneQuotePanics | media.go:185-187 | as written, the parameter `q="` makes the slice `value[1:len(value)-1]` go out of bounds |
| Media.AsWrittenAgrees | media.go:175-191 | wherever the code as written does not panic it agrees with the corrected version, and it panics exactly when the trimmed value is a lone `"` |
| Media.KeyValueRoundTrip | media.go:176-183 | splitting `k = v` (any white space around `=`) gives back the trimmed key and value |
| Media.SplitTrimmedPair | media.go:176-188 | a trimmed key without `=` and a trimmed value, joined by `=`, split back into the key and the unquoted value |
| Media.QuotedValueRoundTrip | media.go:185-188 | a value in double quotes loses exactly its two quotes |
| Media.ParameterList | media.go:162-172 | one parameter per `;`-separated piece, each trimmed |
| Media.SplitParameters | media.go:162-172 | the loop returns `ParameterList`: every piece, trimmed, in order |
| Media.ParamMapKeys | media.go:76-79 | a key is in the parameter map iff some parameter has that key |
| Media.ParamMapLastWins | media.go:76-79 | the value stored for a key is that of its last parameter, so the last `q=` wins |
| Media.FillParameters | media.go:76-79 | the loop that stores each parameter returns `ParamMap` of the parameters |
| Media.MediaTypeOf | media.go:65-102 | a piece parses iff its range holds a `/`; the quality is the parsed `q` or 1; the parameters are those after the first `;` |
| Media.ParseMediaType | media.go:65-102 | the loop that fills the map gives exactly `MediaTypeOf` |
| Media.ParseBareRange | media.go:65-102 | `type/subtype` parses to itself with quality 1 and no parameters |
| Media.ParseRangeWithParameter | media.go:74-89 | `type/subtype;k=v` parses to one parameter `k=v`, and its quality comes from it |
| Media.SplitAtSemicolon | media.go:66-75 | `range;param` yields the range and the one parameter |
| Media.ParseRangeWithParameters | media.go:66-89 | `type/subtype;p1;...;pn` parses to type, subtype, the map built from `p1..pn`, and the quality that map gives |
| Media.SplitAtSemicolons | media.go:66-80 | `range;p1;...;pn` yields the range and the map built from `p1..pn` |
| Media.ParameterListOfJoin | media.go:164-172 | trimmed parameters without `;`, joined by `;`, split back into the same list |
| Media.CutTrimmedAtSemicolon | media.go:66 | a trimmed `range;param` is cut at its first `;` |
| Media.ParameterListOfOne | media.go:162-172 | a trimmed parameter without `;` is a list of one |
| Media.RangeParts | media.go:91-98 | `t/st` is cut at its `/` into the type and the subtype |
| Media.ParamsOfOne | media.go:76-79 | one `k=v` parameter makes the map `{k: v}` |
| Media.MatchMediaType | media.go:120-141 | a candidate admits an entry only when its media range holds a `/`: a candidate that `parseMediaType` rejects (media.go:121-124) matches nothing |
| Media.StarStarAdmitsAll | media.go:126-140 | the candidate `*/*` matches every entry |
| Media.MatchBareCandidate | media.go:120-141 | a candidate `t/st` matches an entry iff its type is `t` (or `t` is `*`) and its subtype is `st` (or `st` is `*`); a `*` in the entry is not a wildcard |
| Media.MatchCandidateParameter | media.go:134-138 | a candidate parameter `k=v` matches iff the types match and `v` is `*` or the entry's `k` is `v`, a missing one reading as `""` |
| Media.MatchCandidateParameters | media.go:120-141 | a candidate `t/st;p1;...;pn` matches iff the types match as for a bare candidate and every parameter of the map built from `p1..pn` (last key wins) is `*` or equals the entry's value |
| Media.OneParameterMet | media.go:134-138 | a single candidate parameter `k=v` is met iff `v` is `*` or the entry's `k` is `v` |
| Media.ParsedMediaTypes | media.go:54-55 | one parse result per piece |
| Media.PositiveMediaTypesMembers | media.go:56-58 | an entry survives iff it parsed and its quality is above 0 |
| Media.PositiveMediaTypesCount | media.go:54-59 | an entry of quality above 0 is kept once per piece that parses to it, duplicates included; others not at all |
| Media.MediaEntriesMembers | media.go:49-62 | an entry of the header survives iff some piece parses to it with quality above 0 |
| Media.IsMediaTypeAccepted | media.go:105-117 | with no candidates, or with `*/*` among them, every entry is accepted |
| Media.SplitMediaTypes | media.go:49-62 | the loop returns `MediaEntries` of the `,`-pieces |
| Media.AcceptedMediaTypesMembers | media.go:105-117 | an entry is kept iff some candidate matches it; with no candidates every entry is kept, in order |
| Media.AcceptedMediaTypesCount | media.go:37-41 | an accepted entry is kept as often as it occurs in the header; a rejected one not at all |
| Media.KeepAccepted | media.go:35-41 | the filtering loop returns `AcceptedMediaTypes` |
| Media.MediaNames | media.go:151-159 | one name per entry |
| Media.RankedMediaTypesOrder | media.go:143-148 | the ranking is a permutation of the accepted entries, by non-increasing quality, and equal qualities keep header order |
| Media.NegotiateMediaTypes | media.go:27-46 | one name per accepted entry |
| Media.NegotiateMediaTypesNames | media.go:151-158 | one `type/subtype` per accepted entry in ranked order, duplicates kept and parameters dropped; a string is returned iff some accepted entry prints as it |
| Media.StarStarEntries | media.go:30-34 | the implied header `*/*` yields the single entry `*/*` with quality 1 |
| Media.EmptyAcceptNoCandidates | media.go:28-32 | an empty header and no candidates give `["*/*"]` |
| Media.EmptyAcceptConcreteCandidate | media.go:30-41 | an empty header and a concrete candidate `t/st` give nothing |
| Media.SortMediaTypesByPriority | media.go:144-148 | the array is stably sorted by descending quality |
| Media.GetMediaTypes | media.go:151-159 | the loop returns `MediaNames` of the array |
| Media.ParseMediaTypes | media.go:27-46 | the method returns `NegotiateMediaTypes` of the header and the candidates |
| Charsets.QualityDefault | charset.go:68-81 | with no `q` parameter that parses, the quality is 1 |
| Charsets.QualityLastParsableWins | charset.go:72-79 | the last `q` parameter that parses sets the quality; later unparsable ones do not |
| Charsets.CharsetOf | charset.go:60-87 | the name is trimmed and holds no `;`: it stops before the first one |
| Charsets.ParseCharset | charset.go:60-87 | the loop that updates the quality gives exactly `CharsetOf` |
| Charsets.ReadQuality | charset.go:72-80 | the parameter loop returns `QualityFrom`: 1, overwritten by every `q` that parses |
| Charsets.ParseBareCharset | charset.go:60-87 | a bare name reads as itself with quality 1 |
| Charsets.ParseCharsetWithQuality | charset.go:70-80 | `name;q=v` reads as the name with the parsed `v`, or 1 when it does not parse |
| Charsets.NameAndOneParam | charset.go:61-71 | `name;param` yields the name and the one parameter |
| Charsets.ParsedCharsets | charset.go:49-50 | one charset per piece |
| Charsets.PositiveCharsetsMembers | charset.go:51-53 | a charset survives iff its quality is above 0 |
| Charsets.PositiveCharsetsCount | charset.go:47-54 | a charset of quality above 0 is kept as often as it occurs; others not at all |
| Charsets.CharsetEntriesMembers | charset.go:44-57 | an entry survives iff some piece reads as it with quality above 0 |
| Charsets.SplitCharsets | charset.go:44-57 | the loop returns `CharsetEntries` of the `,`-pieces |
| Charsets.FirstFoldFrom | charset.go:95-100 | a found index lies in the scanned range |
| Charsets.FirstFoldFromSpec | charset.go:95-100 | the index found is the first candidate equal to the name up to case; none is found iff there is none |
| Charsets.AcceptedIndexSpec | charset.go:90-103 | with candidates, accepted iff some candidate equals the name up to case; the index is the first such candidate, and -1 when not accepted |
| Charsets.AcceptedIndex | charset.go:90-103 | `(-1, true)` with no candidates; when accepted, a valid index of a candidate equal to the name up to case; `-1` when not accepted |
| Charsets.StarIsLiteral | charset.go:95-99 | a `*` entry is accepted iff `*` itself is a candidate |
| Charsets.IsCharsetAccepted | charset.go:90-103 | the scan returns `AcceptedIndex`, with `(-1, true)` when there are no candidates |
| Charsets.PreferredCharsetsMembers | charset.go:29-35 | a kept charset is an accepted entry renamed to its first matching candidate, with its quality |
| Charsets.PreferredCharsetsCount | charset.go:29-35 | one renamed charset per header position whose name some candidate equals up to case: repeats and entries renamed to the same candidate are all kept |
| Charsets.PreferredCharsetsNames | charset.go:29-35 | every kept charset is named by a candidate, and there are no more of them than entries |
| Charsets.RenameAccepted | charset.go:29-35 | the renaming loop returns `PreferredCharsets` |
| Charsets.CharsetNames | charset.go:114-122 | one name per charset |
| Charsets.RankedCharsetsOrder | charset.go:106-111 | the ranking is a permutation of the kept charsets, by non-increasing quality, and equal qualities keep header order |
| Charsets.NegotiateCharsets | charset.go:18-41 | whatever the header, every returned name is a candidate |
| Charsets.NegotiateCharsetsFromAvailable | charset.go:18-41 | every returned name is a candidate; an empty header, `*` or no candidates return the candidates; otherwise there is one name per renamed entry, and so one per header position (after the quality filter) that some candidate equals up to case, duplicates kept |
| Charsets.SortCharsetsByPriority | charset.go:106-111 | the array is stably sorted by descending quality |
| Charsets.GetCharsets | charset.go:114-122 | the loop returns `CharsetNames` of the array |
| Charsets.ParseCharsets | charset.go:18-41 | the method returns `NegotiateCharsets` of the header and the candidates |
| Languages.LangOfFailure | language.go:58-67 | a piece fails iff it holds `;q=` and the second piece of `Split(s, ";q=")` (the text from the first `;q=` up to the next one or the end), trimmed, does not parse; the error is `failed to parse quality value` |
| Languages.LangOf | language.go:58-70 | only a piece holding `;q=` can fail, always with `failed to parse quality value`; a name is always trimmed |
| Languages.ParseBareLanguage | language.go:59-61 | a piece without `;q=` reads as the whole trimmed piece with quality 1 |
| Languages.ParseLanguageWithQuality | language.go:63-69 | `name;q=v` reads as the trimmed name with the parsed trimmed `v`, or fails |
| Languages.ParsedLangs | language.go:43-44 | one result per piece |
| Languages.CollectLangsSpec | language.go:43-53 | collecting fails iff some piece fails; otherwise it keeps exactly the languages of quality above 0 |
| Languages.CollectLangsCount | language.go:43-51 | when collecting succeeds, a language of quality above 0 is kept once per piece that reads as it; others not at all |
| Languages.FailureSticks | language.go:44-47 | once a piece fails, the whole header fails with that error |
| Languages.LangEntriesFailure | language.go:39-54 | the header fails iff one of its pieces fails |
| Languages.LangEntriesMembers | language.go:39-54 | without errors, a language is kept iff some piece reads as it with quality above 0 |
| Languages.SplitLanguages | language.go:39-54 | the loop, stopping at the first error, returns `LangEntries` |
| Languages.PreferredLangsMembers | language.go:73-87 | a language is kept iff its name is exactly (with case) a candidate |
| Languages.PreferredLangsCount | language.go:80-84 | a language whose name is a candidate is kept as often as it occurs; others not at all |
| Languages.FindPreferredLanguages | language.go:73-87 | the set-then-filter loops return `PreferredLangs` |
| Languages.RankingNames | language.go:90-103 | for every order of ties, the names are candidates, one per kept language, and every candidate language of the header appears |
| Languages.SortIsRanking | language.go:90-94 | the stable sort gives a permutation by non-increasing quality, which is one of the answers `sort.Slice` may give |
| Languages.LangNames | language.go:96-103 | one name per language |
| Languages.NegotiateLanguagesSpec | language.go:17-34 | past the shortcut: an error iff some piece fails; otherwise a permutation of the kept languages by non-increasing quality, named by candidates |
| Languages.NegotiateLanguagesShortcut | language.go:20-22 | an empty header, `*` or no candidates return the candidates; every returned name is a candidate |
| Languages.NegotiateLanguages | language.go:17-34 | every name it returns is a candidate |
| Languages.SortLanguagesByPriority | language.go:90-94 | the array ends up as some ranking of its old contents (a permutation by non-increasing quality) |
| Languages.GetLanguages | language.go:96-103 | the loop returns `LangNames` of the array |
| Languages.ParseLanguages | language.go:17-34 | the candidates for the shortcut headers, the error of a bad quality, or the names of a ranking of the kept languages |
| Encodings.ParsedEncodings | encoding.go:43-61 | one entry per piece |
| Encodings.EncodingOf | encoding.go:47-57 | the entry carries its position and a trimmed name; a piece without `;q=` has quality 1 |
| Encodings.ParsedEncodingsIndexes | encoding.go:47-57 | nothing is dropped when parsing, and entry `i` carries index `i` |
| Encodings.ParseBareEncoding | encoding.go:48-50 | a piece without `;q=` reads as the whole trimmed piece with quality 1 |
| Encodings.ParseEncodingWithQuality | encoding.go:48-56 | `name;q=v` reads as the trimmed name with the untrimmed `v` parsed, or 1 |
| Encodings.ParseAcceptEncoding | encoding.go:43-61 | the loop returns `ParsedEncodings` of the `,`-pieces |
| Encodings.FilteredEncodingsMembers | encoding.go:63-78 | an entry is kept iff some candidate equals its name up to case; quality plays no part |
| Encodings.FilteredEncodings | encoding.go:63-78 | the filter keeps no more entries than it is given, and only entries of its input |
| Encodings.FilteredNoCandidates | encoding.go:63-78 | with no candidates nothing is kept |
| Encodings.FilteredEncodingsIncreasing | encoding.go:69-75 | the filter keeps header order |
| Encodings.FilterEncodings | encoding.go:63-78 | the set-then-filter loops return `FilteredEncodings` |
| Encodings.EncodingBeforeIsStrictWeakOrder | encoding.go:27-32 | the two-key comparator is a strict weak order |
| Encodings.EncodingNames | encoding.go:35-38 | one name per entry |
| Encodings.RankedEncodingsOrder | encoding.go:26-32 | the ranking is a permutation of the kept entries, by quality descending and then by header position |
| Encodings.RankedEncodingsDistinct | encoding.go:43-78 | kept entries have distinct, increasing positions, so the order has no ties |
| Encodings.NegotiateEncodingsNames | encoding.go:17-41 | an empty header returns the candidates; otherwise every name equals a candidate up to case, and no candidates give nothing |
| Encodings.NegotiateEncodings | encoding.go:17-41 | an empty header returns the candidates; otherwise there is at most one name per piece of the header |
| Encodings.SortEncodings | encoding.go:27-32 | the array is sorted exactly as `SortBy` with the comparator |
| Encodings.SortAndName | encoding.go:26-40 | the sort and the naming loop return `EncodingNames` of the sorted entries |
| Encodings.GetEncodingNames | encoding.go:35-38 | the loop returns `EncodingNames` of the array |
| Encodings.ParseEncoding | encoding.go:17-41 | the method returns `NegotiateEncodings` of the header and the candidates |

## Left out

- `*http.Request`, `Header.Get` and `New` (media.go:17-23) are left out. Each method takes the header value as a string argument.
- The `fmt.Println`/`Printf` output in charset.go is output only and does not affect results.
- `strconv.ParseFloat` is a parameter of every operation, so IEEE-754 range, `NaN`, `Inf` and hex floats are left out. Qualities are `real`, not `float64`.
- `strings.TrimSpace`, `ToLower` and `EqualFold` are modelled for ASCII only. Unicode white space and Unicode case folding are left out.
- The Go `sort` algorithms are not modelled. Every sort is an insertion sort with the same `less`, which for `sort.SliceStable` gives the same result as Go.
- Languages.NegotiateLanguages: `sort.Slice` is not stable, and this function fixes one order for ties (header order). `ParseLanguages` and `SortLanguagesByPriority` promise only a permutation by non-increasing quality, which is all Go promises.
- The checks `len(parts) == 0` after `strings.SplitN` (media.go:67-69, charset.go:62-64) cannot succeed, since `SplitN` always yields at least one piece. The model has no such branch.
- `matchMediaType` and `isMediaTypeAccepted` are early-return searches with no state. They are modelled as the predicates `Media.MatchMediaType` and `Media.IsMediaTypeAccepted`, without their loops.
- Media.ParseMediaTypes, Media.NegotiateMediaTypes, Media.MatchMediaType, Media.IsMediaTypeAccepted, Media.AcceptedMediaTypes, Charsets.ParseCharsets, Charsets.NegotiateCharsets: these use the corrected `SplitKeyValuePair`, so where a parameter value is a lone `"` they return a result where the Go code panics at media.go:187. That happens for such a value in the header (`text/html;q="`, or `utf-8;q="` with candidates), and for such a value in a media-type candidate, because `matchMediaType` parses every candidate (media.go:121): the header `text/html` with the candidates `["text/html;a=\""]` panics in Go, while the model keeps `"` as the value, finds no match and returns `[]`. Charset candidates are never parsed (charset.go:97 compares the raw strings), so they cannot panic. The panic is modelled only at `Media.SplitKeyValuePairAsWritten` and `Media.LoneQuotePanics`, not at pipeline level.
- Encodings.RankedEncodingsOrder: the contract states `<=` on header positions within one quality. Strictness follows from `RankedEncodingsDistinct`, but it is not restated on the sorted sequence.

## Findings

| source | as written | input that shows it | evidently intended | confidence | as-written member | corrected member |
|---|---|---|---|---|---|---|
| media.go:185-188 | a value that starts and ends with `"` is sliced as `value[1:len(value)-1]`, which also fires for the one-character value `"` | the parameter `q="`, e.g. the header `text/html;q="` (also via `Accept-Charset: utf-8;q="`), or a media-type candidate such as `text/html;a="` with the header `text/html` | strip quotes only from a value of at least two characters; leave a lone `"` unchanged | not executed | Media.SplitKeyValuePairAsWritten, Media.LoneQuotePanics | Media.SplitKeyValuePair |

=== FILE: charsets.dfy ===
/**
 * The `Accept-Charset` pipeline of charset.go: split the header on `,`,
 * read each piece as a name with optional parameters (the last `q` that
 * parses decides the quality), drop quality 0 or below, rename every entry
 * to the first candidate that equals it up to letter case, sort stably by
 * quality and return the names.  An empty header, a header `*` or no
 * candidates at all return the candidates unchanged.
 */
module Charsets {
  import opened Wrappers
  import opened GoStrings
  import Media
  import Sorting

  datatype Charset = Charset(name: string, quality: real)

  // ---------------------------------------------------------------- parsing

  /** A parameter that sets the quality: key `q` and a value the parser accepts. */
  predicate IsQualityParam(param: string, parseFloat: FloatParser) {
    var kv := Media.SplitKeyValuePair(param);
    kv.0 == "q" && parseFloat(kv.1).Some?
  }

  /** The quality after reading the parameters in order, starting from 1. */
  function QualityFrom(ps: seq<string>, parseFloat: FloatParser): (q: real) {
    if ps == [] then 1.0
    else
      var p := ps[|ps| - 1];
      if IsQualityParam(p, parseFloat) then parseFloat(Media.SplitKeyValuePair(p).1).value
      else QualityFrom(ps[..|ps| - 1], parseFloat)
  }

  /** Without a parsable `q` parameter the quality is 1. */
  lemma {:induction false} QualityDefault(ps: seq<string>, parseFloat: FloatParser)
    requires forall i :: 0 <= i < |ps| ==> !IsQualityParam(ps[i], parseFloat)
    ensures QualityFrom(ps, parseFloat) == 1.0
    decreases |ps|
  {
    if ps != [] {
      var ps' := ps[..|ps| - 1];
      assert forall i :: 0 <= i < |ps'| ==> ps'[i] == ps[i];
      QualityDefault(ps', parseFloat);
    }
  }

  /**
   * The last parsable `q` parameter decides the quality; a later `q` whose
   * value does not parse leaves it alone.
   */
  lemma {:induction false} QualityLastParsableWins(ps: seq<string>, i: nat, parseFloat: FloatParser)
    requires i < |ps| && IsQualityParam(ps[i], parseFloat)
    requires forall j :: i < j < |ps| ==> !IsQualityParam(ps[j], parseFloat)
    ensures QualityFrom(ps, parseFloat) == parseFloat(Media.SplitKeyValuePair(ps[i]).1).value
    decreases |ps|
  {
    if i < |ps| - 1 {
      var ps' := ps[..|ps| - 1];
      assert ps'[i] == ps[i];
      assert forall j :: i < j < |ps'| ==> ps'[j] == ps[j];
      QualityLastParsableWins(ps', i, parseFloat);
    }
  }

  /** The parameters after the first `;` of the trimmed piece, or none. */
  function CharsetParamsOf(s: string): (ps: seq<string>) {
    var parts := SplitN2(TrimSpace(s), ";");
    if |parts| > 1 then Media.ParameterList(parts[1]) else []
  }

  /**
   * `parseCharset`: the trimmed text before the first `;` and the quality of
   * the parameters.  The name is trimmed and holds no `;`: it stops at the
   * first one.
   */
  function CharsetOf(s: string, parseFloat: FloatParser): (c: Charset)
    ensures Trimmed(c.name) && ';' !in c.name
  {
    var parts := SplitN2(TrimSpace(s), ";");
    SplitN2Spec(TrimSpace(s), ";");
    ContainsChar(parts[0], ';');
    TrimSpaceSubset(parts[0], ';');
    Charset(Media.BeforeSemicolon(s), QualityFrom(CharsetParamsOf(s), parseFloat))
  }

  /** `parseCharset`, updating the quality in a loop over the parameters. */
  method ParseCharset(s: string, parseFloat: FloatParser) returns (c: Charset)
    ensures c == CharsetOf(s, parseFloat)
  {
    var parts := SplitN2(TrimSpace(s), ";");
    var name := TrimSpace(parts[0]);
    var q := 1.0;
    if |parts| > 1 {
      var ps := Media.SplitParameters(parts[1]);
      q := ReadQuality(ps, parseFloat);
    }
    c := Charset(name, q);
  }

  /** The loop of `parseCharset` that lets every parsable `q` overwrite the quality. */
  method ReadQuality(ps: seq<string>, parseFloat: FloatParser) returns (q: real)
    ensures q == QualityFrom(ps, parseFloat)
  {
    q := 1.0;
    for i := 0 to |ps|
      invariant q == QualityFrom(ps[..i], parseFloat)
    {
      var kv := Media.SplitKeyValuePair(ps[i]);
      if kv.0 == "q" {
        match parseFloat(kv.1)
        case Some(x) => q := x;
        case None =>
      }
      assert ps[..i + 1][..i] == ps[..i];
    }
    assert ps[..|ps|] == ps;
  }

  /** A bare name reads as itself with quality 1. */
  lemma ParseBareCharset(name: string, parseFloat: FloatParser)
    requires Trimmed(name) && ';' !in name
    ensures CharsetOf(name, parseFloat) == Charset(name, 1.0)
  {
    TrimmedIsFixed(name);
    NoCut(name, ';');
  }

  /**
   * `name;q=v` reads as `name` with the parsed value of `v`, or with
   * quality 1 when `v` does not parse.
   */
  lemma ParseCharsetWithQuality(name: string, v: string, parseFloat: FloatParser)
    requires Trimmed(name) && ';' !in name
    requires Trimmed(v) && !Media.IsQuoted(v) && ';' !in v
    ensures CharsetOf(name + ";q=" + v, parseFloat)
         == Charset(name, if parseFloat(v).Some? then parseFloat(v).value else 1.0)
  {
    var param := "q=" + v;
    assert param == "q" + "=" + v;
    assert name + ";q=" + v == name + ";" + param;
    Media.TrimmedJoin("q", '=', v);
    Media.SplitTrimmedPair("q", v);
    QualityOfOne(param, v, parseFloat);
    NameAndOneParam(name, param);
  }

  /** A single `q=v` parameter sets the quality to `v` when it parses. */
  lemma QualityOfOne(param: string, v: string, parseFloat: FloatParser)
    requires Media.SplitKeyValuePair(param) == ("q", v)
    ensures QualityFrom([param], parseFloat) == if parseFloat(v).Some? then parseFloat(v).value else 1.0
  {
    assert [param][..0] == [];
  }

  /** A trimmed name and one trimmed parameter, joined by `;`. */
  lemma NameAndOneParam(name: string, param: string)
    requires Trimmed(name) && ';' !in name && Trimmed(param) && ';' !in param
    ensures Media.BeforeSemicolon(name + ";" + param) == name
    ensures CharsetParamsOf(name + ";" + param) == [param]
  {
    Media.SplitAtSemicolon(name, param);
    Media.CutTrimmedAtSemicolon(name, param);
    Media.ParameterListOfOne(param);
  }

  /** Every piece read as a charset. */
  function ParsedCharsets(pieces: seq<string>, parseFloat: FloatParser): (cs: seq<Charset>)
    ensures |cs| == |pieces|
  {
    seq(|pieces|, i requires 0 <= i < |pieces| => CharsetOf(pieces[i], parseFloat))
  }

  /** The charsets of quality above 0, in order. */
  function PositiveCharsets(cs: seq<Charset>): seq<Charset> {
    if cs == [] then []
    else
      var rest := PositiveCharsets(cs[..|cs| - 1]);
      if cs[|cs| - 1].quality > 0.0 then rest + [cs[|cs| - 1]] else rest
  }

  lemma {:induction false} PositiveCharsetsMembers(cs: seq<Charset>)
    ensures forall c :: c in PositiveCharsets(cs) <==> c in cs && c.quality > 0.0
    decreases |cs|
  {
    if cs != [] {
      PositiveCharsetsMembers(cs[..|cs| - 1]);
      assert cs == cs[..|cs| - 1] + [cs[|cs| - 1]];
    }
  }

  /** A charset of quality above 0 is kept as often as it occurs; any other is dropped. */
  lemma {:induction false} PositiveCharsetsCount(cs: seq<Charset>, c: Charset)
    ensures multiset(PositiveCharsets(cs))[c] == if c.quality > 0.0 then multiset(cs)[c] else 0
    decreases |cs|
  {
    if cs != [] {
      PositiveCharsetsCount(cs[..|cs| - 1], c);
      assert cs == cs[..|cs| - 1] + [cs[|cs| - 1]];
    }
  }

  /** `splitCharsets`'s result: the pieces' charsets of quality above 0, in header order. */
  function CharsetEntries(pieces: seq<string>, parseFloat: FloatParser): seq<Charset> {
    PositiveCharsets(ParsedCharsets(pieces, parseFloat))
  }

  /** An entry survives iff some piece reads as it and its quality is above 0. */
  lemma CharsetEntriesMembers(pieces: seq<string>, parseFloat: FloatParser, c: Charset)
    ensures c in CharsetEntries(pieces, parseFloat)
        <==> c.quality > 0.0 && exists i :: 0 <= i < |pieces| && CharsetOf(pieces[i], parseFloat) == c
  {
    var parsed := ParsedCharsets(pieces, parseFloat);
    PositiveCharsetsMembers(parsed);
    if c in parsed {
      var i :| 0 <= i < |parsed| && parsed[i] == c;
      assert CharsetOf(pieces[i], parseFloat) == c;
    }
    if exists i :: 0 <= i < |pieces| && CharsetOf(pieces[i], parseFloat) == c {
      var i :| 0 <= i < |pieces| && CharsetOf(pieces[i], parseFloat) == c;
      assert parsed[i] == c;
    }
  }

  /** `splitCharsets`. */
  method SplitCharsets(accept: string, parseFloat: FloatParser) returns (entries: seq<Charset>)
    ensures entries == CharsetEntries(Split(accept, ","), parseFloat)
  {
    var pieces := Split(accept, ",");
    entries := [];
    for i := 0 to |pieces|
      invariant entries == PositiveCharsets(ParsedCharsets(pieces, parseFloat)[..i])
    {
      var c := ParseCharset(pieces[i], parseFloat);
      if c.quality > 0.0 {
        entries := entries + [c];
      }
      assert ParsedCharsets(pieces, parseFloat)[..i + 1][..i] == ParsedCharsets(pieces, parseFloat)[..i];
    }
    assert ParsedCharsets(pieces, parseFloat)[..|pieces|] == ParsedCharsets(pieces, parseFloat);
  }

  // -------------------------------------------------------------- matching

  /** The first candidate at or after `k` that equals `name` up to letter case. */
  function FirstFoldFrom(available: seq<string>, name: string, k: nat): (r: Option<nat>)
    requires k <= |available|
    ensures r.Some? ==> k <= r.value < |available|
    decreases |available| - k
  {
    if k == |available| then None
    else if EqualFold(available[k], name) then Some(k)
    else FirstFoldFrom(available, name, k + 1)
  }

  lemma {:induction false} FirstFoldFromSpec(available: seq<string>, name: string, k: nat)
    requires k <= |available|
    ensures var r := FirstFoldFrom(available, name, k);
            (r.Some? ==> k <= r.value < |available| && EqualFold(available[r.value], name)
                         && forall j :: k <= j < r.value ==> !EqualFold(available[j], name))
            && (r.None? ==> forall j :: k <= j < |available| ==> !EqualFold(available[j], name))
    decreases |available| - k
  {
    if k < |available| && !EqualFold(available[k], name) {
      FirstFoldFromSpec(available, name, k + 1);
    }
  }

  /**
   * `isCharsetAccepted`'s result: `(-1, true)` with no candidates, else the
   * index of a candidate equal to the name up to case, or `(-1, false)`.
   */
  function AcceptedIndex(c: Charset, available: seq<string>): (r: (int, bool))
    ensures |available| == 0 ==> r == (-1, true)
    ensures |available| > 0 && r.1 ==> 0 <= r.0 < |available| && EqualFold(available[r.0], c.name)
    ensures !r.1 ==> r.0 == -1
  {
    FirstFoldFromSpec(available, c.name, 0);
    if |available| == 0 then (-1, true)
    else match FirstFoldFrom(available, c.name, 0)
      case Some(i) => (i as int, true)
      case None => (-1, false)
  }

  /**
   * With candidates, a charset is accepted iff some candidate equals its
   * name up to letter case, and the index is that of the first such one.
   */
  lemma AcceptedIndexSpec(c: Charset, available: seq<string>)
    requires |available| > 0
    ensures var (idx, ok) := AcceptedIndex(c, available);
            (ok <==> exists j :: 0 <= j < |available| && EqualFold(available[j], c.name))
            && (ok ==> 0 <= idx < |available| && EqualFold(available[idx], c.name)
                       && forall j :: 0 <= j < idx ==> !EqualFold(available[j], c.name))
            && (!ok ==> idx == -1)
  {
    FirstFoldFromSpec(available, c.name, 0);
  }

  /** A `*` entry is no wildcard: only a candidate that is literally `*` accepts it. */
  lemma StarIsLiteral(q: real, available: seq<string>)
    requires |available| > 0
    ensures AcceptedIndex(Charset("*", q), available).1 <==> "*" in available
  {
    var c := Charset("*", q);
    AcceptedIndexSpec(c, available);
    forall j | 0 <= j < |available|
      ensures EqualFold(available[j], "*") <==> available[j] == "*"
    {
      EqualFoldNoLetters("*", available[j]);
    }
  }

  /** `isCharsetAccepted`, scanning the candidates in order. */
  method IsCharsetAccepted(c: Charset, available: seq<string>) returns (idx: int, ok: bool)
    ensures (idx, ok) == AcceptedIndex(c, available)
  {
    if |available| == 0 {
      return -1, true;
    }
    for i := 0 to |available|
      invariant FirstFoldFrom(available, c.name, 0) == FirstFoldFrom(available, c.name, i)
    {
      if EqualFold(available[i], c.name) {
        return i, true;
      }
    }
    return -1, false;
  }

  /** The accepted entries, each renamed to its matching candidate, in header order. */
  function PreferredCharsets(entries: seq<Charset>, available: seq<string>): (preferred: seq<Charset>)
    requires |available| > 0
  {
    if entries == [] then []
    else
      var rest := PreferredCharsets(entries[..|entries| - 1], available);
      var c := entries[|entries| - 1];
      FirstFoldFromSpec(available, c.name, 0);
      var (idx, ok) := AcceptedIndex(c, available);
      if ok then rest + [Charset(available[idx], c.quality)] else rest
  }

  /**
   * Each kept entry is an entry of the header renamed to the first candidate
   * that equals it up to case, with its quality; entries without such a
   * candidate are dropped.
   */
  lemma {:induction false} PreferredCharsetsMembers(entries: seq<Charset>, available: seq<string>, p: Charset)
    requires |available| > 0
    ensures p in PreferredCharsets(entries, available)
        <==> exists e :: e in entries && FirstFoldFrom(available, e.name, 0).Some?
                         && p == Charset(available[FirstFoldFrom(available, e.name, 0).value], e.quality)
    decreases |entries|
  {
    if entries != [] {
      var e' := entries[..|entries| - 1];
      var last := entries[|entries| - 1];
      PreferredCharsetsMembers(e', available, p);
      FirstFoldFromSpec(available, last.name, 0);
      assert entries == e' + [last];
      if exists e :: e in entries && FirstFoldFrom(available, e.name, 0).Some?
                     && p == Charset(available[FirstFoldFrom(available, e.name, 0).value], e.quality) {
        var e :| e in entries && FirstFoldFrom(available, e.name, 0).Some?
                 && p == Charset(available[FirstFoldFrom(available, e.name, 0).value], e.quality);
        if e != last {
          assert e in e';
        }
      }
    }
  }

  /** The header positions whose name some candidate equals up to case. */
  ghost function AcceptedPositions(entries: seq<Charset>, available: seq<string>): set<int> {
    set i | 0 <= i < |entries| && FirstFoldFrom(available, entries[i].name, 0).Some?
  }

  /**
   * One charset per header position that some candidate equals up to case:
   * repeated entries, and distinct entries renamed to the same candidate,
   * are all kept.
   */
  lemma {:induction false} PreferredCharsetsCount(entries: seq<Charset>, available: seq<string>)
    requires |available| > 0
    ensures |PreferredCharsets(entries, available)| == |AcceptedPositions(entries, available)|
    decreases |entries|
  {
    if entries == [] {
      assert AcceptedPositions(entries, available) == {};
    } else {
      PreferredCharsetsCount(entries[..|entries| - 1], available);
      PreferredCharsetsStep(entries, available);
      AcceptedPositionsStep(entries, available);
    }
  }

  lemma PreferredCharsetsStep(entries: seq<Charset>, available: seq<string>)
    requires |available| > 0 && |entries| > 0
    ensures |PreferredCharsets(entries, available)|
         == |PreferredCharsets(entries[..|entries| - 1], available)|
            + if FirstFoldFrom(available, entries[|entries| - 1].name, 0).Some? then 1 else 0
  {
    FirstFoldFromSpec(available, entries[|entries| - 1].name, 0);
  }

  lemma AcceptedPositionsStep(entries: seq<Charset>, available: seq<string>)
    requires |entries| > 0
    ensures |AcceptedPositions(entries, available)|
         == |AcceptedPositions(entries[..|entries| - 1], available)|
            + if FirstFoldFrom(available, entries[|entries| - 1].name, 0).Some? then 1 else 0
  {
    var n := |entries|;
    var all := AcceptedPositions(entries, available);
    var init := AcceptedPositions(entries[..n - 1], available);
    var grown := if FirstFoldFrom(available, entries[n - 1].name, 0).Some? then init + {n - 1} else init;
    assert all == grown by {
      assert forall i :: 0 <= i < n - 1 ==> entries[..n - 1][i] == entries[i];
    }
    assert n - 1 !in init;
  }

  /** Every kept entry carries a candidate's name, and none is added or lost beyond the filter. */
  lemma {:induction false} PreferredCharsetsNames(entries: seq<Charset>, available: seq<string>)
    requires |available| > 0
    ensures |PreferredCharsets(entries, available)| <= |entries|
    ensures forall p :: p in PreferredCharsets(entries, available) ==> p.name in available
    decreases |entries|
  {
    if entries != [] {
      var c := entries[|entries| - 1];
      PreferredCharsetsNames(entries[..|entries| - 1], available);
      FirstFoldFromSpec(available, c.name, 0);
    }
  }

  // --------------------------------------------------------------- ranking

  /** `sortCharsetsByPriority`'s `less`: higher quality first. */
  function CharsetBefore(a: Charset, b: Charset): bool {
    a.quality > b.quality
  }

  function QualityOf(c: Charset): real {
    c.quality
  }

  function RankedCharsets(header: string, available: seq<string>, parseFloat: FloatParser): (ranked: seq<Charset>)
    requires |available| > 0
  {
    Sorting.SortBy(PreferredCharsets(CharsetEntries(Split(header, ","), parseFloat), available), CharsetBefore)
  }

  /** `getCharsets`'s result: the name of each entry. */
  function CharsetNames(cs: seq<Charset>): (names: seq<string>)
    ensures |names| == |cs|
  {
    seq(|cs|, i requires 0 <= i < |cs| => cs[i].name)
  }

  /**
   * `ParseCharsets` as a function of the header value and the candidates:
   * whatever the header, it names only candidates.
   */
  function NegotiateCharsets(header: string, available: seq<string>, parseFloat: FloatParser): (names: seq<string>)
    ensures forall s :: s in names ==> s in available
  {
    if header == "" || |available| == 0 || header == "*" then available
    else
      RankedFromAvailable(header, available, parseFloat);
      CharsetNames(RankedCharsets(header, available, parseFloat))
  }

  /** Every ranked entry carries a candidate's name. */
  lemma RankedFromAvailable(header: string, available: seq<string>, parseFloat: FloatParser)
    requires |available| > 0
    ensures forall s :: s in CharsetNames(RankedCharsets(header, available, parseFloat)) ==> s in available
  {
    var preferred := PreferredCharsets(CharsetEntries(Split(header, ","), parseFloat), available);
    var ranked := RankedCharsets(header, available, parseFloat);
    PreferredCharsetsNames(CharsetEntries(Split(header, ","), parseFloat), available);
    Sorting.SortByPermutes(preferred, CharsetBefore);
    forall s | s in CharsetNames(ranked)
      ensures s in available
    {
      var i :| 0 <= i < |ranked| && CharsetNames(ranked)[i] == s;
      assert ranked[i] in multiset(preferred);
    }
  }

  /**
   * The ranking is a permutation of the renamed entries, by non-increasing
   * quality, and entries of equal quality keep their header order.
   */
  lemma RankedCharsetsOrder(header: string, available: seq<string>, parseFloat: FloatParser)
    requires |available| > 0
    ensures var ranked := RankedCharsets(header, available, parseFloat);
            var preferred := PreferredCharsets(CharsetEntries(Split(header, ","), parseFloat), available);
            multiset(ranked) == multiset(preferred)
            && (forall i, j :: 0 <= i < j < |ranked| ==> ranked[i].quality >= ranked[j].quality)
            && (forall q :: Sorting.Select(ranked, QualityOf, q) == Sorting.Select(preferred, QualityOf, q))
  {
    var preferred := PreferredCharsets(CharsetEntries(Split(header, ","), parseFloat), available);
    Sorting.SortByPermutes(preferred, CharsetBefore);
    Sorting.SortBySorted(preferred, CharsetBefore);
    forall q {
      Sorting.SortByStable(preferred, CharsetBefore, QualityOf, q);
    }
  }

  /**
   * Whatever the header, the result names only candidates; past the
   * shortcut there is one name per accepted entry, duplicates kept.
   */
  lemma NegotiateCharsetsFromAvailable(header: string, available: seq<string>, parseFloat: FloatParser)
    ensures forall s :: s in NegotiateCharsets(header, available, parseFloat) ==> s in available
    ensures header == "" || header == "*" || available == [] ==> NegotiateCharsets(header, available, parseFloat) == available
    ensures header != "" && header != "*" && available != [] ==>
              |NegotiateCharsets(header, available, parseFloat)|
              == |PreferredCharsets(CharsetEntries(Split(header, ","), parseFloat), available)|
    ensures header != "" && header != "*" && available != [] ==>
              |NegotiateCharsets(header, available, parseFloat)|
              == |AcceptedPositions(CharsetEntries(Split(header, ","), parseFloat), available)|
  {
    if header != "" && header != "*" && |available| > 0 {
      var preferred := PreferredCharsets(CharsetEntries(Split(header, ","), parseFloat), available);
      Sorting.SortByPermutes(preferred, CharsetBefore);
      PreferredCharsetsCount(CharsetEntries(Split(header, ","), parseFloat), available);
    }
  }

  /** The renaming loop of `ParseCharsets`. */
  method RenameAccepted(parsed: seq<Charset>, available: seq<string>) returns (preferred: seq<Charset>)
    requires |available| > 0
    ensures preferred == PreferredCharsets(parsed, available)
  {
    preferred := [];
    for i := 0 to |parsed|
      invariant preferred == PreferredCharsets(parsed[..i], available)
    {
      var idx, ok := IsCharsetAccepted(parsed[i], available);
      FirstFoldFromSpec(available, parsed[i].name, 0);
      if ok {
        preferred := preferred + [Charset(available[idx], parsed[i].quality)];
      }
      assert parsed[..i + 1][..i] == parsed[..i];
    }
    assert parsed[..|parsed|] == parsed;
  }

  /** `sortCharsetsByPriority`: a stable sort of the slice by descending quality. */
  method SortCharsetsByPriority(a: array<Charset>)
    modifies a
    ensures a[..] == Sorting.SortBy(old(a[..]), CharsetBefore)
  {
    Sorting.SortInPlace(a, CharsetBefore);
  }

  /** `getCharsets`. */
  method GetCharsets(a: array<Charset>) returns (names: seq<string>)
    ensures names == CharsetNames(a[..])
  {
    var result := new string[a.Length];
    for i := 0 to a.Length
      invariant forall k :: 0 <= k < i ==> result[k] == a[k].name
    {
      result[i] := a[i].name;
    }
    names := result[..];
  }

  /** `ParseCharsets`: the candidates' view of the `Accept-Charset` header, best first. */
  method ParseCharsets(header: string, available: seq<string>, parseFloat: FloatParser) returns (r: seq<string>)
    ensures r == NegotiateCharsets(header, available, parseFloat)
  {
    if header == "" || |available| == 0 || header == "*" {
      return available;
    }
    var parsed := SplitCharsets(header, parseFloat);
    var preferred := RenameAccepted(parsed, available);
    var a := new Charset[|preferred|](i requires 0 <= i < |preferred| => preferred[i]);
    assert a[..] == preferred;
    SortCharsetsByPriority(a);
    r := GetCharsets(a);
    assert r == CharsetNames(RankedCharsets(header, available, parseFloat)) by {
      assert a[..] == RankedCharsets(header, available, parseFloat);
    }
  }
}

=== FILE: encodings.dfy ===
/**
 * The `Accept-Encoding` pipeline of encoding.go: split the header on `,`,
 * cut every piece at `;q=` (a quality that does not parse counts as 1),
 * number the pieces, keep those whose name equals a candidate up to letter
 * case (whatever their quality, 0 included), order them by quality and then
 * by position, and return the names as the header spells them.  Only an
 * empty header returns the candidates unchanged.
 */
module Encodings {
  import opened GoStrings
  import Sorting

  datatype Encoding = Encoding(name: string, quality: real, index: int)

  // ---------------------------------------------------------------- parsing

  /**
   * One piece of the header at position `i`: the trimmed text before the
   * first `;q=`, and the value of the untrimmed text after it up to the
   * next `;q=`, or 1 when there is none or it does not parse.
   */
  function EncodingOf(raw: string, i: nat, parseFloat: FloatParser): (e: Encoding)
    ensures e.index == i && Trimmed(e.name)
    ensures !Contains(raw, ";q=") ==> e.quality == 1.0
  {
    SplitManyIffContains(raw, ";q=");
    var parts := Split(raw, ";q=");
    var quality := if |parts| > 1 && parseFloat(parts[1]).Some? then parseFloat(parts[1]).value else 1.0;
    Encoding(TrimSpace(parts[0]), quality, i)
  }

  /** `parseAcceptEncoding`'s result: one entry per piece, numbered by position. */
  function ParsedEncodings(raws: seq<string>, parseFloat: FloatParser): (es: seq<Encoding>)
    ensures |es| == |raws|
  {
    seq(|raws|, i requires 0 <= i < |raws| => EncodingOf(raws[i], i, parseFloat))
  }

  /** Every piece yields an entry, whatever its quality, and entry `i` carries index `i`. */
  lemma ParsedEncodingsIndexes(raws: seq<string>, parseFloat: FloatParser)
    ensures var es := ParsedEncodings(raws, parseFloat);
            |es| == |raws| && forall i :: 0 <= i < |es| ==> es[i].index == i
  {
  }

  /** A piece without `;q=` reads as the whole piece, trimmed, with quality 1. */
  lemma ParseBareEncoding(piece: string, i: nat, parseFloat: FloatParser)
    requires !Contains(piece, ";q=")
    ensures EncodingOf(piece, i, parseFloat) == Encoding(TrimSpace(piece), 1.0, i)
  {
    IndexSpec(piece, ";q=");
  }

  /**
   * `name;q=v` reads as the trimmed name with the value of `v` exactly as
   * written (white space is not trimmed), or 1 when it does not parse.
   */
  lemma ParseEncodingWithQuality(name: string, v: string, i: nat, parseFloat: FloatParser)
    requires ';' !in name && ';' !in v
    ensures EncodingOf(name + ";q=" + v, i, parseFloat)
         == Encoding(TrimSpace(name), if parseFloat(v).Some? then parseFloat(v).value else 1.0, i)
  {
    CutAtSep(name, ";q=", v);
    NoSep(v, ";q=");
  }

  /** `parseAcceptEncoding`. */
  method ParseAcceptEncoding(input: string, parseFloat: FloatParser) returns (encodings: seq<Encoding>)
    ensures encodings == ParsedEncodings(Split(input, ","), parseFloat)
  {
    var rawEncodings := Split(input, ",");
    encodings := [];
    for i := 0 to |rawEncodings|
      invariant |encodings| == i
      invariant forall k :: 0 <= k < i ==> encodings[k] == EncodingOf(rawEncodings[k], k, parseFloat)
    {
      var parts := Split(rawEncodings[i], ";q=");
      var name := TrimSpace(parts[0]);
      var quality := 1.0;
      if |parts| > 1 {
        match parseFloat(parts[1])
        case Some(q) => quality := q;
        case None =>
      }
      encodings := encodings + [Encoding(name, quality, i)];
    }
  }

  // ------------------------------------------------------------- filtering

  /** The lower-cased candidates: the set `filterEncodings` builds. */
  function LowerSet(available: seq<string>): (lowered: set<string>) {
    set a | a in available :: ToLower(a)
  }

  /**
   * `filterEncodings`'s result: the entries whose lower-cased name is a
   * lower-cased candidate, in order; nothing is added.
   */
  function FilteredEncodings(es: seq<Encoding>, available: seq<string>): (kept: seq<Encoding>)
    ensures |kept| <= |es|
    ensures forall e :: e in kept ==> e in es
  {
    if es == [] then []
    else
      var rest := FilteredEncodings(es[..|es| - 1], available);
      if ToLower(es[|es| - 1].name) in LowerSet(available) then rest + [es[|es| - 1]] else rest
  }

  /** An entry is kept iff some candidate equals its name up to letter case; its quality plays no part. */
  lemma {:induction false} FilteredEncodingsMembers(es: seq<Encoding>, available: seq<string>)
    ensures forall e :: e in FilteredEncodings(es, available)
                    <==> e in es && exists a :: a in available && EqualFold(a, e.name)
    decreases |es|
  {
    if es != [] {
      var last := es[|es| - 1];
      FilteredEncodingsMembers(es[..|es| - 1], available);
      assert es == es[..|es| - 1] + [last];
      if ToLower(last.name) in LowerSet(available) {
        var a :| a in available && ToLower(a) == ToLower(last.name);
        assert EqualFold(a, last.name);
      }
    }
  }

  /** With no candidates nothing is kept. */
  lemma {:induction false} FilteredNoCandidates(es: seq<Encoding>)
    ensures FilteredEncodings(es, []) == []
    decreases |es|
  {
    if es != [] {
      FilteredNoCandidates(es[..|es| - 1]);
    }
  }

  /** Filtering keeps header order: indices that increased still increase. */
  lemma {:induction false} FilteredEncodingsIncreasing(es: seq<Encoding>, available: seq<string>)
    requires forall i, j :: 0 <= i < j < |es| ==> es[i].index < es[j].index
    ensures forall i, j :: 0 <= i < j < |FilteredEncodings(es, available)| ==>
              FilteredEncodings(es, available)[i].index < FilteredEncodings(es, available)[j].index
    decreases |es|
  {
    if es != [] {
      var es' := es[..|es| - 1];
      assert forall i :: 0 <= i < |es'| ==> es'[i] == es[i];
      FilteredEncodingsIncreasing(es', available);
      var f' := FilteredEncodings(es', available);
      forall i | 0 <= i < |f'|
        ensures f'[i].index < es[|es| - 1].index
      {
        assert f'[i] in f';
        var k :| 0 <= k < |es'| && es'[k] == f'[i];
        assert es[k] == f'[i];
      }
      var last := es[|es| - 1];
      if ToLower(last.name) in LowerSet(available) {
        var f := f' + [last];
        assert FilteredEncodings(es, available) == f;
        forall i, j | 0 <= i < j < |f|
          ensures f[i].index < f[j].index
        {
          assert f[i] == f'[i];
          if j < |f'| {
            assert f[j] == f'[j];
          }
        }
      }
    }
  }

  /** `filterEncodings`: the set of lower-cased candidates, then one pass over the entries. */
  method FilterEncodings(parsed: seq<Encoding>, available: seq<string>) returns (filtered: seq<Encoding>)
    ensures filtered == FilteredEncodings(parsed, available)
  {
    var availableSet: set<string> := {};
    for i := 0 to |available|
      invariant availableSet == set j | 0 <= j < i :: ToLower(available[j])
    {
      availableSet := availableSet + {ToLower(available[i])};
    }
    assert availableSet == LowerSet(available) by {
      forall n | n in LowerSet(available)
        ensures n in availableSet
      {
        var a :| a in available && n == ToLower(a);
        var j :| 0 <= j < |available| && available[j] == a;
      }
    }
    filtered := [];
    for i := 0 to |parsed|
      invariant filtered == FilteredEncodings(parsed[..i], available)
    {
      if ToLower(parsed[i].name) in availableSet {
        filtered := filtered + [parsed[i]];
      }
      assert parsed[..i + 1][..i] == parsed[..i];
    }
    assert parsed[..|parsed|] == parsed;
  }

  // --------------------------------------------------------------- ranking

  /** The comparator of `ParseEncoding`: higher quality first, then earlier in the header. */
  function EncodingBefore(a: Encoding, b: Encoding): bool {
    if a.quality != b.quality then a.quality > b.quality else a.index < b.index
  }

  /** The comparator is a strict weak order, so the sort it drives is well defined. */
  lemma EncodingBeforeIsStrictWeakOrder()
    ensures Sorting.StrictWeakOrder(EncodingBefore)
  {
  }

  function RankedEncodings(header: string, available: seq<string>, parseFloat: FloatParser): (ranked: seq<Encoding>) {
    Sorting.SortBy(FilteredEncodings(ParsedEncodings(Split(header, ","), parseFloat), available), EncodingBefore)
  }

  /** The names of the entries, as the header spells them. */
  function EncodingNames(es: seq<Encoding>): (names: seq<string>)
    ensures |names| == |es|
  {
    seq(|es|, i requires 0 <= i < |es| => es[i].name)
  }

  /**
   * `ParseEncoding` as a function of the header value and the candidates:
   * past the empty header, at most one name per piece of the header.
   */
  function NegotiateEncodings(header: string, available: seq<string>, parseFloat: FloatParser): (names: seq<string>)
    ensures header == "" ==> names == available
    ensures header != "" ==> |names| <= |Split(header, ",")|
  {
    if header == "" then available
    else
      Sorting.SortByPermutes(FilteredEncodings(ParsedEncodings(Split(header, ","), parseFloat), available), EncodingBefore);
      EncodingNames(RankedEncodings(header, available, parseFloat))
  }

  /**
   * The ranking is a permutation of the kept entries, by non-increasing
   * quality and, within one quality, by position in the header.
   */
  lemma RankedEncodingsOrder(header: string, available: seq<string>, parseFloat: FloatParser)
    ensures var ranked := RankedEncodings(header, available, parseFloat);
            var filtered := FilteredEncodings(ParsedEncodings(Split(header, ","), parseFloat), available);
            multiset(ranked) == multiset(filtered)
            && forall i, j :: 0 <= i < j < |ranked| ==>
                 ranked[i].quality > ranked[j].quality
                 || (ranked[i].quality == ranked[j].quality && ranked[i].index <= ranked[j].index)
  {
    var filtered := FilteredEncodings(ParsedEncodings(Split(header, ","), parseFloat), available);
    EncodingBeforeIsStrictWeakOrder();
    Sorting.SortByPermutes(filtered, EncodingBefore);
    Sorting.SortBySorted(filtered, EncodingBefore);
  }

  /**
   * With a header, the result names kept entries only, each as the header
   * spells it and equal up to case to some candidate; with no candidates it
   * is empty.  Without a header it is the candidates.
   */
  lemma NegotiateEncodingsNames(header: string, available: seq<string>, parseFloat: FloatParser)
    ensures header == "" ==> NegotiateEncodings(header, available, parseFloat) == available
    ensures header != "" ==>
              forall s :: s in NegotiateEncodings(header, available, parseFloat) ==>
                exists a :: a in available && EqualFold(a, s)
    ensures header != "" && available == [] ==> NegotiateEncodings(header, available, parseFloat) == []
  {
    if header != "" {
      var parsed := ParsedEncodings(Split(header, ","), parseFloat);
      var filtered := FilteredEncodings(parsed, available);
      var ranked := RankedEncodings(header, available, parseFloat);
      FilteredEncodingsMembers(parsed, available);
      Sorting.SortByPermutes(filtered, EncodingBefore);
      forall s | s in EncodingNames(ranked)
        ensures exists a :: a in available && EqualFold(a, s)
      {
        var i :| 0 <= i < |ranked| && EncodingNames(ranked)[i] == s;
        assert ranked[i] in multiset(filtered);
      }
      if available == [] {
        FilteredNoCandidates(parsed);
      }
    }
  }

  /** Entries keep distinct, increasing header positions after filtering, so no two tie in the ranking. */
  lemma RankedEncodingsDistinct(header: string, available: seq<string>, parseFloat: FloatParser)
    ensures var f := FilteredEncodings(ParsedEncodings(Split(header, ","), parseFloat), available);
            forall i, j :: 0 <= i < j < |f| ==> f[i].index < f[j].index
  {
    var parsed := ParsedEncodings(Split(header, ","), parseFloat);
    ParsedEncodingsIndexes(Split(header, ","), parseFloat);
    FilteredEncodingsIncreasing(parsed, available);
  }

  /** `sort.SliceStable` with the comparator. */
  method SortEncodings(a: array<Encoding>)
    modifies a
    ensures a[..] == Sorting.SortBy(old(a[..]), EncodingBefore)
  {
    Sorting.SortInPlace(a, EncodingBefore);
  }

  /** `ParseEncoding`. */
  method ParseEncoding(header: string, available: seq<string>, parseFloat: FloatParser) returns (r: seq<string>)
    ensures r == NegotiateEncodings(header, available, parseFloat)
  {
    if header == "" {
      return available;
    }
    var parsed := ParseAcceptEncoding(header, parseFloat);
    var filtered := FilterEncodings(parsed, available);
    r := SortAndName(filtered);
  }

  /** The sort and the name extraction of `ParseEncoding`. */
  method SortAndName(filtered: seq<Encoding>) returns (r: seq<string>)
    ensures r == EncodingNames(Sorting.SortBy(filtered, EncodingBefore))
  {
    var a := new Encoding[|filtered|](i requires 0 <= i < |filtered| => filtered[i]);
    assert a[..] == filtered;
    SortEncodings(a);
    r := GetEncodingNames(a);
  }

  /** The loop of `ParseEncoding` that fills `result` with the names. */
  method GetEncodingNames(a: array<Encoding>) returns (names: seq<string>)
    ensures names == EncodingNames(a[..])
  {
    var result := new string[a.Length];
    for i := 0 to a.Length
      invariant forall k :: 0 <= k < i ==> result[k] == a[k].name
    {
      result[i] := a[i].name;
    }
    names := result[..];
  }
}

=== FILE: gostrings.dfy ===
/**
 * The parts of Go's `strings` and `strconv` packages that the negotiator
 * uses, restricted to ASCII: `TrimSpace`, `Split`, `SplitN(_, _, 2)`,
 * `ToLower`, `EqualFold`, and `ParseFloat` as an abstract partial parser.
 */
module GoStrings {
  import opened Wrappers

  /** `strconv.ParseFloat(s, 64)`: a number, or None where Go reports an error. */
  type FloatParser = string -> Option<real>

  /** The ASCII white space that `strings.TrimSpace` removes. */
  predicate IsSpace(c: char) {
    c == ' ' || c == '\t' || c == '\n' || c == '\U{B}' || c == '\U{C}' || c == '\r'
  }

  predicate AllSpace(s: string) {
    forall i :: 0 <= i < |s| ==> IsSpace(s[i])
  }

  /** True when `s` neither starts nor ends with white space. */
  predicate Trimmed(s: string) {
    s == [] || (!IsSpace(s[0]) && !IsSpace(s[|s| - 1]))
  }

  function TrimLeft(s: string): (r: string) {
    if s != [] && IsSpace(s[0]) then TrimLeft(s[1..]) else s
  }

  function TrimRight(s: string): (r: string) {
    if s != [] && IsSpace(s[|s| - 1]) then TrimRight(s[..|s| - 1]) else s
  }

  /** TrimLeft removes a prefix of white space and stops at the first other character. */
  lemma {:induction false} TrimLeftShape(s: string)
    ensures var r := TrimLeft(s);
            |r| <= |s| && s == s[..|s| - |r|] + r && AllSpace(s[..|s| - |r|])
            && (r == [] || !IsSpace(r[0]))
    decreases |s|
  {
    if s != [] && IsSpace(s[0]) {
      TrimLeftShape(s[1..]);
      var r := TrimLeft(s);
      assert s[..|s| - |r|] == [s[0]] + s[1..][..|s| - 1 - |r|];
    } else {
      assert s[..0] == [];
    }
  }

  /** TrimRight removes a suffix of white space and stops at the last other character. */
  lemma {:induction false} TrimRightShape(s: string)
    ensures var r := TrimRight(s);
            |r| <= |s| && s == r + s[|r|..] && AllSpace(s[|r|..])
            && (r == [] || !IsSpace(r[|r| - 1]))
    decreases |s|
  {
    if s != [] && IsSpace(s[|s| - 1]) {
      TrimRightShape(s[..|s| - 1]);
      var r := TrimRight(s);
      assert s[|r|..] == s[..|s| - 1][|r|..] + [s[|s| - 1]];
    }
  }

  /** `strings.TrimSpace`. */
  function TrimSpace(s: string): (r: string)
    ensures Trimmed(r)
  {
    var l := TrimLeft(s);
    TrimLeftShape(s);
    TrimRightShape(l);
    var r := TrimRight(l);
    assert r != [] ==> r[0] == l[0];
    r
  }

  /** TrimSpace keeps the middle of `s` and removes only white space around it. */
  lemma TrimSpaceShape(s: string)
    ensures var r := TrimSpace(s);
            exists i :: 0 <= i <= |s| - |r| && s == s[..i] + r + s[i + |r|..]
                        && AllSpace(s[..i]) && AllSpace(s[i + |r|..])
  {
    var l := TrimLeft(s);
    var r := TrimRight(l);
    var i := |s| - |l|;
    assert |l| <= |s| && s == s[..i] + l && AllSpace(s[..i]) by {
      TrimLeftShape(s);
    }
    assert |r| <= |l| && l == r + l[|r|..] && AllSpace(l[|r|..]) by {
      TrimRightShape(l);
    }
    var tail := l[|r|..];
    assert s == s[..i] + r + tail;
    assert s[i + |r|..] == tail;
  }

  /** TrimSpace introduces no character that was not in `s`. */
  lemma TrimSpaceSubset(s: string, c: char)
    requires c !in s
    ensures c !in TrimSpace(s)
  {
    TrimSpaceShape(s);
    var r := TrimSpace(s);
    var i :| 0 <= i <= |s| - |r| && s == s[..i] + r + s[i + |r|..];
  }

  lemma {:induction false} TrimLeftOfSpaces(a: string, r: string)
    requires AllSpace(a) && (r == [] || !IsSpace(r[0]))
    ensures TrimLeft(a + r) == r
    decreases |a|
  {
    if a != [] {
      assert (a + r)[1..] == a[1..] + r;
      TrimLeftOfSpaces(a[1..], r);
    } else {
      assert a + r == r;
    }
  }

  lemma {:induction false} TrimRightOfSpaces(r: string, b: string)
    requires AllSpace(b) && (r == [] || !IsSpace(r[|r| - 1]))
    ensures TrimRight(r + b) == r
    decreases |b|
  {
    if b != [] {
      assert (r + b)[..|r + b| - 1] == r + b[..|b| - 1];
      TrimRightOfSpaces(r, b[..|b| - 1]);
    } else {
      assert r + b == r;
    }
  }

  /** TrimSpace undoes any padding of a trimmed string with white space. */
  lemma TrimSpaceUnpads(a: string, r: string, b: string)
    requires AllSpace(a) && AllSpace(b) && Trimmed(r)
    ensures TrimSpace(a + r + b) == r
  {
    if r == [] {
      assert a + r + b == a + b;
      assert AllSpace(a + b);
      TrimLeftOfSpaces(a + b, []);
      assert a + b + [] == a + b;
    } else {
      assert a + r + b == a + (r + b);
      TrimLeftOfSpaces(a, r + b);
      TrimRightOfSpaces(r, b);
    }
  }

  /** A trimmed string is its own TrimSpace. */
  lemma TrimmedIsFixed(s: string)
    requires Trimmed(s)
    ensures TrimSpace(s) == s
  {
    assert [] + s + [] == s;
    TrimSpaceUnpads([], s, []);
  }

  // ---------------------------------------------------------------- search

  /** `sep` occurs in `s` starting at index `i`. */
  predicate OccursAt(s: string, sep: string, i: int) {
    0 <= i && i + |sep| <= |s| && s[i..i + |sep|] == sep
  }

  predicate Contains(s: string, sep: string) {
    exists i :: 0 <= i <= |s| && OccursAt(s, sep, i)
  }

  function IndexFrom(s: string, sep: string, k: nat): (r: Option<nat>)
    requires k <= |s|
    decreases |s| - k
  {
    if OccursAt(s, sep, k) then Some(k)
    else if k + |sep| >= |s| then None
    else IndexFrom(s, sep, k + 1)
  }

  lemma {:induction false} IndexFromSpec(s: string, sep: string, k: nat)
    requires k <= |s|
    ensures var r := IndexFrom(s, sep, k);
            (r.Some? ==> k <= r.value && OccursAt(s, sep, r.value)
                         && forall j :: k <= j < r.value ==> !OccursAt(s, sep, j))
            && (r.None? ==> forall j :: k <= j ==> !OccursAt(s, sep, j))
    decreases |s| - k
  {
    if !OccursAt(s, sep, k) && k + |sep| < |s| {
      IndexFromSpec(s, sep, k + 1);
    }
  }

  /** `strings.Index`: the first occurrence of `sep` in `s`, if any. */
  function Index(s: string, sep: string): (r: Option<nat>) {
    IndexFrom(s, sep, 0)
  }

  /** Index finds the first occurrence, and finds none only if there is none. */
  lemma IndexSpec(s: string, sep: string)
    ensures var r := Index(s, sep);
            (r.Some? ==> OccursAt(s, sep, r.value) && forall j :: 0 <= j < r.value ==> !OccursAt(s, sep, j))
            && (r.None? <==> !Contains(s, sep))
  {
    IndexFromSpec(s, sep, 0);
  }

  /** A found index is an occurrence: the quantifier-free half of IndexSpec. */
  lemma IndexOccurs(s: string, sep: string)
    ensures Index(s, sep).Some? ==> OccursAt(s, sep, Index(s, sep).value)
  {
    IndexFromSpec(s, sep, 0);
  }

  lemma NoSepBeforeFirst(s: string, sep: string, i: nat)
    requires sep != [] && i <= |s|
    requires forall j :: 0 <= j < i ==> !OccursAt(s, sep, j)
    ensures !Contains(s[..i], sep)
  {
    forall j | OccursAt(s[..i], sep, j)
      ensures false
    {
      assert s[..i][j..j + |sep|] == s[j..j + |sep|];
      assert OccursAt(s, sep, j);
    }
  }

  // ------------------------------------------------------------- splitting

  /** `strings.Join`. */
  function Join(parts: seq<string>, sep: string): (s: string) {
    if parts == [] then ""
    else if |parts| == 1 then parts[0]
    else parts[0] + sep + Join(parts[1..], sep)
  }

  /** `strings.Split` for a non-empty separator: never fewer than one piece. */
  function Split(s: string, sep: string): (parts: seq<string>)
    requires sep != []
    ensures |parts| >= 1
    decreases |s|
  {
    match Index(s, sep)
    case None => [s]
    case Some(i) =>
      IndexSpec(s, sep);
      [s[..i]] + Split(s[i + |sep|..], sep)
  }

  /** Split loses nothing: joining the pieces with `sep` gives `s` back. */
  lemma {:induction false} SplitJoins(s: string, sep: string)
    requires sep != []
    ensures Join(Split(s, sep), sep) == s
    decreases |s|
  {
    if Index(s, sep).Some? {
      var i := Index(s, sep).value;
      SplitStep(s, sep);
      var tail := s[i + |sep|..];
      SplitJoins(tail, sep);
      JoinCons(s[..i], Split(tail, sep), sep);
    }
  }

  /** One step of Split: the piece before the first `sep`, then the pieces of the rest. */
  lemma SplitStep(s: string, sep: string)
    requires sep != [] && Index(s, sep).Some?
    ensures Index(s, sep).value + |sep| <= |s|
    ensures Split(s, sep) == [s[..Index(s, sep).value]] + Split(s[Index(s, sep).value + |sep|..], sep)
    ensures s == s[..Index(s, sep).value] + sep + s[Index(s, sep).value + |sep|..]
  {
    IndexOccurs(s, sep);
    SliceAround(s, sep, Index(s, sep).value);
  }

  /** An occurrence of `sep` at `i` cuts `s` into the text before it, `sep` and the text after it. */
  lemma SliceAround(s: string, sep: string, i: nat)
    requires OccursAt(s, sep, i)
    ensures s == s[..i] + sep + s[i + |sep|..]
  {
    assert s == s[..i] + s[i..i + |sep|] + s[i + |sep|..];
  }

  lemma JoinCons(a: string, rest: seq<string>, sep: string)
    requires |rest| >= 1
    ensures Join([a] + rest, sep) == a + sep + Join(rest, sep)
  {
    assert ([a] + rest)[1..] == rest;
  }

  /** Split cuts at every occurrence: no piece contains `sep`. */
  lemma {:induction false} SplitPiecesFree(s: string, sep: string)
    requires sep != []
    ensures forall k :: 0 <= k < |Split(s, sep)| ==> !Contains(Split(s, sep)[k], sep)
    decreases |s|
  {
    IndexSpec(s, sep);
    if Index(s, sep).Some? {
      var i := Index(s, sep).value;
      NoSepBeforeFirst(s, sep, i);
      var tail := s[i + |sep|..];
      SplitPiecesFree(tail, sep);
      var rest := Split(tail, sep);
      var parts := Split(s, sep);
      assert parts == [s[..i]] + rest;
      forall k | 0 <= k < |parts|
        ensures !Contains(parts[k], sep)
      {
        if k > 0 {
          assert parts[k] == rest[k - 1];
        }
      }
    }
  }

  /** `strings.SplitN(s, sep, 2)`: `s` cut at the first `sep`, if there is one. */
  function SplitN2(s: string, sep: string): (parts: seq<string>)
    requires sep != []
    ensures 1 <= |parts| <= 2
  {
    match Index(s, sep)
    case None => [s]
    case Some(i) =>
      IndexSpec(s, sep);
      [s[..i], s[i + |sep|..]]
  }

  /** SplitN2 cuts at the first `sep` only, and only when there is one. */
  lemma SplitN2Spec(s: string, sep: string)
    requires sep != []
    ensures var parts := SplitN2(s, sep);
            (|parts| == 2 <==> Contains(s, sep))
            && Join(parts, sep) == s
            && !Contains(parts[0], sep)
  {
    IndexSpec(s, sep);
    match Index(s, sep)
    case None =>
    case Some(i) =>
      NoSepBeforeFirst(s, sep, i);
      assert s == s[..i] + sep + s[i + |sep|..];
  }

  /** A one-character separator occurs exactly where the character does. */
  lemma ContainsChar(a: string, c: char)
    ensures Contains(a, [c]) <==> c in a
  {
    if c in a {
      var i :| 0 <= i < |a| && a[i] == c;
      assert a[i..i + 1] == [c];
      assert OccursAt(a, [c], i);
    }
    if Contains(a, [c]) {
      var i :| 0 <= i <= |a| && OccursAt(a, [c], i);
      assert a[i] == a[i..i + 1][0];
    }
  }

  /** An occurrence with none before it is what Index finds. */
  lemma IndexIsFirst(s: string, sep: string, i: nat)
    requires OccursAt(s, sep, i)
    requires forall j :: 0 <= j < i ==> !OccursAt(s, sep, j)
    ensures Index(s, sep) == Some(i)
  {
    IndexSpec(s, sep);
    assert Contains(s, sep);
  }

  /** Cutting at the first `c` when `a` has none: the pieces are `a` and `b`. */
  lemma CutAtChar(a: string, c: char, b: string)
    requires c !in a
    ensures Index(a + [c] + b, [c]) == Some(|a|)
    ensures SplitN2(a + [c] + b, [c]) == [a, b]
    ensures Split(a + [c] + b, [c]) == [a] + Split(b, [c])
  {
    var s := a + [c] + b;
    assert s[|a|..|a| + 1] == [c];
    assert OccursAt(s, [c], |a|);
    forall j | 0 <= j < |a|
      ensures !OccursAt(s, [c], j)
    {
      assert s[j..j + 1] == [a[j]];
    }
    IndexIsFirst(s, [c], |a|);
    assert s[..|a|] == a && s[|a| + 1..] == b;
  }

  /** A string without `c` is a single piece. */
  lemma NoCut(a: string, c: char)
    requires c !in a
    ensures SplitN2(a, [c]) == [a] && Split(a, [c]) == [a]
  {
    ContainsChar(a, c);
    IndexSpec(a, [c]);
  }

  /** A single-character separator: splitting a join gives back the pieces. */
  lemma {:induction false} SplitJoin(parts: seq<string>, c: char)
    requires |parts| >= 1
    requires forall k :: 0 <= k < |parts| ==> c !in parts[k]
    ensures Split(Join(parts, [c]), [c]) == parts
    decreases |parts|
  {
    if |parts| == 1 {
      NoCut(parts[0], c);
    } else {
      assert Join(parts, [c]) == parts[0] + [c] + Join(parts[1..], [c]);
      CutAtChar(parts[0], c, Join(parts[1..], [c]));
      SplitJoin(parts[1..], c);
    }
  }

  /** Split yields more than one piece exactly when `sep` occurs. */
  lemma SplitManyIffContains(s: string, sep: string)
    requires sep != []
    ensures |Split(s, sep)| > 1 <==> Contains(s, sep)
  {
    IndexSpec(s, sep);
  }

  /** A string that does not hold the first character of `sep` holds no `sep`. */
  lemma NoSepStart(a: string, sep: string)
    requires sep != [] && sep[0] !in a
    ensures forall j :: 0 <= j < |a| ==> !OccursAt(a + sep, sep, j)
    ensures !Contains(a, sep)
  {
    forall j | 0 <= j < |a|
      ensures !OccursAt(a + sep, sep, j)
    {
      assert (a + sep)[j..j + |sep|][0] == a[j];
    }
    forall j | 0 <= j <= |a|
      ensures !OccursAt(a, sep, j)
    {
      if j + |sep| <= |a| {
        assert a[j..j + |sep|][0] == a[j];
      }
    }
  }

  /** Cutting at a separator whose first character `a` lacks: the first piece is `a`. */
  lemma CutAtSep(a: string, sep: string, b: string)
    requires sep != [] && sep[0] !in a
    ensures Split(a + sep + b, sep) == [a] + Split(b, sep)
  {
    var s := a + sep + b;
    NoSepStart(a, sep);
    assert s[|a|..|a| + |sep|] == sep;
    forall j | 0 <= j < |a|
      ensures !OccursAt(s, sep, j)
    {
      assert !OccursAt(a + sep, sep, j);
      assert s[j..j + |sep|] == (a + sep)[j..j + |sep|];
    }
    IndexIsFirst(s, sep, |a|);
    assert s[..|a|] == a && s[|a| + |sep|..] == b;
  }

  /** A string that lacks the first character of `sep` is one piece. */
  lemma NoSep(a: string, sep: string)
    requires sep != [] && sep[0] !in a
    ensures Split(a, sep) == [a]
  {
    NoSepStart(a, sep);
    IndexSpec(a, sep);
  }

  // ----------------------------------------------------------- case folding

  function LowerChar(c: char): (l: char) {
    if 'A' <= c <= 'Z' then (c as int + 32) as char else c
  }

  /** `strings.ToLower` on ASCII letters. */
  function ToLower(s: string): (r: string)
    ensures |r| == |s|
    ensures forall i :: 0 <= i < |s| ==> r[i] == LowerChar(s[i])
  {
    if s == [] then [] else [LowerChar(s[0])] + ToLower(s[1..])
  }

  /**
   * `strings.EqualFold` on ASCII letters: equal up to letter case, which is
   * equality of the lower-cased strings.
   */
  predicate EqualFold(a: string, b: string)
    ensures EqualFold(a, b) <==> ToLower(a) == ToLower(b)
  {
    LowerEquality(a, b);
    |a| == |b| && forall i :: 0 <= i < |a| ==> LowerChar(a[i]) == LowerChar(b[i])
  }

  /** Two strings lower-case alike iff they agree letter by letter up to case. */
  lemma LowerEquality(a: string, b: string)
    ensures ToLower(a) == ToLower(b) <==> |a| == |b| && forall i :: 0 <= i < |a| ==> LowerChar(a[i]) == LowerChar(b[i])
  {
    if ToLower(a) == ToLower(b) {
      assert |a| == |b|;
      forall i | 0 <= i < |a|
        ensures LowerChar(a[i]) == LowerChar(b[i])
      {
        assert ToLower(a)[i] == ToLower(b)[i];
      }
    }
  }

  /** Only a string without letters in it folds to itself alone, e.g. "*". */
  lemma EqualFoldNoLetters(a: string, b: string)
    requires forall i :: 0 <= i < |a| ==> !('A' <= a[i] <= 'Z') && !('a' <= a[i] <= 'z')
    ensures EqualFold(a, b) <==> a == b
  {
    if EqualFold(a, b) {
      forall i | 0 <= i < |a|
        ensures a[i] == b[i]
      {
        assert LowerChar(a[i]) == LowerChar(b[i]);
      }
    }
  }
}

=== FILE: languages.dfy ===
/**
 * The `Accept-Language` pipeline of language.go: split the header on `,`,
 * cut every piece at `;q=`, fail the whole header when a quality does not
 * parse, drop quality 0 or below, keep the languages that are candidates
 * (exact, case-sensitive match), sort by quality and return the names.  An
 * empty header, a header `*` or no candidates return the candidates.
 */
module Languages {
  import opened Wrappers
  import opened GoStrings
  import Sorting

  datatype Lang = Lang(name: string, quality: real)

  const QualityError := "failed to parse quality value"

  // ---------------------------------------------------------------- parsing

  /**
   * `parseLanguage`: without `;q=` the trimmed piece with quality 1;
   * otherwise the trimmed text before the first `;q=` with the quality of
   * the trimmed text up to the next one, or an error when that does not parse.
   * Only a piece with `;q=` can fail, always with the same message, and the
   * name is always trimmed.
   */
  function LangOf(s: string, parseFloat: FloatParser): (r: Result<Lang, string>)
    ensures r.Failure? ==> Contains(s, ";q=") && r.error == QualityError
    ensures r.Success? ==> Trimmed(r.value.name)
  {
    SplitManyIffContains(s, ";q=");
    var parts := Split(s, ";q=");
    if |parts| == 1 then Success(Lang(TrimSpace(parts[0]), 1.0))
    else match parseFloat(TrimSpace(parts[1]))
      case None => Failure(QualityError)
      case Some(q) => Success(Lang(TrimSpace(parts[0]), q))
  }

  /** A piece fails exactly when it has a `;q=` whose value does not parse. */
  lemma LangOfFailure(s: string, parseFloat: FloatParser)
    ensures var parts := Split(s, ";q=");
            (|parts| > 1 <==> Contains(s, ";q="))
            && (LangOf(s, parseFloat).Failure? <==> |parts| > 1 && parseFloat(TrimSpace(parts[1])).None?)
    ensures LangOf(s, parseFloat).Failure? ==> LangOf(s, parseFloat).error == QualityError
  {
    SplitManyIffContains(s, ";q=");
  }

  /**
   * A piece without `;q=` reads as the whole piece, trimmed, with quality 1;
   * other parameters such as `;level=1` stay in the name.
   */
  lemma ParseBareLanguage(piece: string, parseFloat: FloatParser)
    requires !Contains(piece, ";q=")
    ensures LangOf(piece, parseFloat) == Success(Lang(TrimSpace(piece), 1.0))
  {
    IndexSpec(piece, ";q=");
  }

  /**
   * `name;q=v` reads as the trimmed name with the value of the trimmed `v`,
   * and fails when that does not parse.
   */
  lemma ParseLanguageWithQuality(name: string, v: string, parseFloat: FloatParser)
    requires ';' !in name && ';' !in v
    ensures LangOf(name + ";q=" + v, parseFloat)
         == match parseFloat(TrimSpace(v))
            case Some(q) => Success(Lang(TrimSpace(name), q))
            case None => Failure(QualityError)
  {
    CutAtSep(name, ";q=", v);
    NoSep(v, ";q=");
  }

  /** Every piece read as a language or an error. */
  function ParsedLangs(pieces: seq<string>, parseFloat: FloatParser): (rs: seq<Result<Lang, string>>)
    ensures |rs| == |pieces|
  {
    seq(|pieces|, i requires 0 <= i < |pieces| => LangOf(pieces[i], parseFloat))
  }

  /**
   * The languages of quality above 0, in order, or the first error: what
   * `splitLanguages` computes from its parsed pieces.
   */
  function CollectLangs(rs: seq<Result<Lang, string>>): (r: Result<seq<Lang>, string>) {
    if rs == [] then Success([])
    else match CollectLangs(rs[..|rs| - 1])
      case Failure(e) => Failure(e)
      case Success(rest) =>
        match rs[|rs| - 1]
        case Failure(e) => Failure(e)
        case Success(l) => if l.quality > 0.0 then Success(rest + [l]) else Success(rest)
  }

  /** The collection fails iff some piece fails; otherwise it keeps exactly the languages of positive quality. */
  lemma {:induction false} CollectLangsSpec(rs: seq<Result<Lang, string>>)
    ensures CollectLangs(rs).Failure? <==> exists i :: 0 <= i < |rs| && rs[i].Failure?
    ensures CollectLangs(rs).Success? ==>
              forall l :: l in CollectLangs(rs).value <==> Success(l) in rs && l.quality > 0.0
    decreases |rs|
  {
    if rs != [] {
      var rs' := rs[..|rs| - 1];
      CollectLangsSpec(rs');
      assert rs == rs' + [rs[|rs| - 1]];
      if exists i :: 0 <= i < |rs'| && rs'[i].Failure? {
        var i :| 0 <= i < |rs'| && rs'[i].Failure?;
        assert rs[i].Failure?;
      }
      if exists i :: 0 <= i < |rs| && rs[i].Failure? {
        var i :| 0 <= i < |rs| && rs[i].Failure?;
        if i < |rs'| {
          assert rs'[i].Failure?;
        }
      }
    }
  }

  /** When the collection succeeds, a language of quality above 0 is kept once per piece that reads as it. */
  lemma {:induction false} CollectLangsCount(rs: seq<Result<Lang, string>>, l: Lang)
    ensures CollectLangs(rs).Success? ==>
              multiset(CollectLangs(rs).value)[l] == if l.quality > 0.0 then multiset(rs)[Success(l)] else 0
    decreases |rs|
  {
    if rs != [] {
      CollectLangsCount(rs[..|rs| - 1], l);
      assert rs == rs[..|rs| - 1] + [rs[|rs| - 1]];
    }
  }

  /** `splitLanguages`'s result. */
  function LangEntries(accept: string, parseFloat: FloatParser): (r: Result<seq<Lang>, string>) {
    CollectLangs(ParsedLangs(Split(accept, ","), parseFloat))
  }

  /** One bad quality anywhere fails the whole header. */
  lemma LangEntriesFailure(accept: string, parseFloat: FloatParser)
    ensures LangEntries(accept, parseFloat).Failure? ==> exists i :: 0 <= i < |Split(accept, ",")| && LangOf(Split(accept, ",")[i], parseFloat).Failure?
    ensures (exists i :: 0 <= i < |Split(accept, ",")| && LangOf(Split(accept, ",")[i], parseFloat).Failure?) ==> LangEntries(accept, parseFloat).Failure?
  {
    var pieces := Split(accept, ",");
    var rs := ParsedLangs(pieces, parseFloat);
    assert LangEntries(accept, parseFloat) == CollectLangs(rs);
    CollectLangsSpec(rs);
    forall i | 0 <= i < |pieces|
      ensures rs[i].Failure? <==> LangOf(pieces[i], parseFloat).Failure?
    {
      assert rs[i] == LangOf(pieces[i], parseFloat);
    }
  }

  /** Without errors, a language is kept iff some piece reads as it with a quality above 0. */
  lemma LangEntriesMembers(accept: string, parseFloat: FloatParser, l: Lang)
    requires LangEntries(accept, parseFloat).Success?
    ensures l in LangEntries(accept, parseFloat).value ==>
              l.quality > 0.0 && exists i :: 0 <= i < |Split(accept, ",")| && LangOf(Split(accept, ",")[i], parseFloat) == Success(l)
    ensures (l.quality > 0.0 && exists i :: 0 <= i < |Split(accept, ",")| && LangOf(Split(accept, ",")[i], parseFloat) == Success(l)) ==>
              l in LangEntries(accept, parseFloat).value
  {
    var pieces := Split(accept, ",");
    var rs := ParsedLangs(pieces, parseFloat);
    assert LangEntries(accept, parseFloat) == CollectLangs(rs);
    CollectLangsSpec(rs);
    if Success(l) in rs {
      var i :| 0 <= i < |rs| && rs[i] == Success(l);
      assert LangOf(pieces[i], parseFloat) == Success(l);
    }
    if exists i :: 0 <= i < |pieces| && LangOf(pieces[i], parseFloat) == Success(l) {
      var i :| 0 <= i < |pieces| && LangOf(pieces[i], parseFloat) == Success(l);
      assert rs[i] == Success(l);
    }
  }

  /** `splitLanguages`: stops at the first piece that fails. */
  method SplitLanguages(accept: string, parseFloat: FloatParser) returns (r: Result<seq<Lang>, string>)
    ensures r == LangEntries(accept, parseFloat)
  {
    var languages := Split(accept, ",");
    ghost var rs := ParsedLangs(languages, parseFloat);
    var parsed: seq<Lang> := [];
    for i := 0 to |languages|
      invariant CollectLangs(rs[..i]) == Success(parsed)
    {
      var language := LangOf(languages[i], parseFloat);
      assert language == rs[i];
      CollectStep(rs, i);
      if language.Failure? {
        FailureSticks(rs, i + 1);
        assert rs[..|rs|] == rs;
        return Failure(language.error);
      }
      if language.value.quality > 0.0 {
        parsed := parsed + [language.value];
      }
    }
    assert rs[..|rs|] == rs;
    return Success(parsed);
  }

  /** Collecting one more piece: its error, or the language appended when its quality is above 0. */
  lemma CollectStep(rs: seq<Result<Lang, string>>, i: nat)
    requires i < |rs| && CollectLangs(rs[..i]).Success?
    ensures rs[i].Failure? ==> CollectLangs(rs[..i + 1]) == Failure(rs[i].error)
    ensures rs[i].Success? && rs[i].value.quality > 0.0 ==>
              CollectLangs(rs[..i + 1]) == Success(CollectLangs(rs[..i]).value + [rs[i].value])
    ensures rs[i].Success? && !(rs[i].value.quality > 0.0) ==> CollectLangs(rs[..i + 1]) == CollectLangs(rs[..i])
  {
    assert rs[..i + 1][..i] == rs[..i];
  }

  /** Once a prefix fails, so does every longer prefix, with the same error. */
  lemma {:induction false} FailureSticks(rs: seq<Result<Lang, string>>, i: nat)
    requires i <= |rs| && CollectLangs(rs[..i]).Failure?
    ensures CollectLangs(rs) == CollectLangs(rs[..i])
    decreases |rs| - i
  {
    if i < |rs| {
      assert rs[..i + 1][..i] == rs[..i];
      assert CollectLangs(rs[..i + 1]) == CollectLangs(rs[..i]);
      FailureSticks(rs, i + 1);
    } else {
      assert rs[..i] == rs;
    }
  }

  // ------------------------------------------------------------- matching

  /** `findPreferredLanguages`'s result: the languages whose name is a candidate, in header order. */
  function PreferredLangs(langs: seq<Lang>, available: seq<string>): (preferred: seq<Lang>) {
    if langs == [] then []
    else
      var rest := PreferredLangs(langs[..|langs| - 1], available);
      if langs[|langs| - 1].name in available then rest + [langs[|langs| - 1]] else rest
  }

  /** A language is kept iff its name is, letter for letter, one of the candidates. */
  lemma {:induction false} PreferredLangsMembers(langs: seq<Lang>, available: seq<string>)
    ensures forall l :: l in PreferredLangs(langs, available) <==> l in langs && l.name in available
    ensures |PreferredLangs(langs, available)| <= |langs|
    decreases |langs|
  {
    if langs != [] {
      PreferredLangsMembers(langs[..|langs| - 1], available);
      assert langs == langs[..|langs| - 1] + [langs[|langs| - 1]];
    }
  }

  /** A language whose name is a candidate is kept as often as it occurs; any other is dropped. */
  lemma {:induction false} PreferredLangsCount(langs: seq<Lang>, available: seq<string>, l: Lang)
    ensures multiset(PreferredLangs(langs, available))[l] == if l.name in available then multiset(langs)[l] else 0
    decreases |langs|
  {
    if langs != [] {
      PreferredLangsCount(langs[..|langs| - 1], available, l);
      assert langs == langs[..|langs| - 1] + [langs[|langs| - 1]];
    }
  }

  /** `findPreferredLanguages`: a set of the candidates, then one pass over the languages. */
  method FindPreferredLanguages(langs: seq<Lang>, available: seq<string>) returns (preferred: seq<Lang>)
    ensures preferred == PreferredLangs(langs, available)
  {
    var availableSet: set<string> := {};
    for i := 0 to |available|
      invariant availableSet == set j | 0 <= j < i :: available[j]
    {
      availableSet := availableSet + {available[i]};
    }
    assert forall n :: n in availableSet <==> n in available;
    preferred := [];
    for i := 0 to |langs|
      invariant preferred == PreferredLangs(langs[..i], available)
    {
      if langs[i].name in availableSet {
        preferred := preferred + [langs[i]];
      }
      assert langs[..i + 1][..i] == langs[..i];
    }
    assert langs[..|langs|] == langs;
  }

  // --------------------------------------------------------------- ranking

  /**
   * What `sort.Slice` promises of its result: the same languages, by
   * non-increasing quality; it is not stable, so ties may come in any order.
   */
  predicate IsRanking(ranked: seq<Lang>, langs: seq<Lang>) {
    multiset(ranked) == multiset(langs)
    && forall i, j :: 0 <= i < j < |ranked| ==> ranked[i].quality >= ranked[j].quality
  }

  /**
   * Whatever order the ties take, a ranking names one candidate per kept
   * language, and every language of the header that is a candidate appears.
   */
  lemma RankingNames(ranked: seq<Lang>, langs: seq<Lang>, available: seq<string>)
    requires IsRanking(ranked, PreferredLangs(langs, available))
    ensures |LangNames(ranked)| == |PreferredLangs(langs, available)|
    ensures forall s :: s in LangNames(ranked) ==> s in available
    ensures forall l :: l in langs && l.name in available ==> l.name in LangNames(ranked)
  {
    var preferred := PreferredLangs(langs, available);
    PreferredLangsMembers(langs, available);
    assert |multiset(ranked)| == |multiset(preferred)|;
    forall s | s in LangNames(ranked)
      ensures s in available
    {
      var i :| 0 <= i < |ranked| && LangNames(ranked)[i] == s;
      assert ranked[i] in multiset(preferred);
    }
    forall l | l in langs && l.name in available
      ensures l.name in LangNames(ranked)
    {
      assert l in multiset(ranked);
      var i :| 0 <= i < |ranked| && ranked[i] == l;
      assert LangNames(ranked)[i] == l.name;
    }
  }

  /** `sortLanguagesByPriority`'s `less`: higher quality first. */
  function LangBefore(a: Lang, b: Lang): bool {
    a.quality > b.quality
  }

  /** `getLanguages`'s result: the name of each language. */
  function LangNames(ls: seq<Lang>): (names: seq<string>)
    ensures |names| == |ls|
  {
    seq(|ls|, i requires 0 <= i < |ls| => ls[i].name)
  }

  /**
   * `ParseLanguages` as a function of the header value and the candidates,
   * with ties in header order: one of the answers `sort.Slice` may give.
   * Every name it returns is a candidate.
   */
  function NegotiateLanguages(header: string, available: seq<string>, parseFloat: FloatParser): (r: Result<seq<string>, string>)
    ensures r.Success? ==> forall s :: s in r.value ==> s in available
  {
    if header == "" || |available| == 0 || header == "*" then Success(available)
    else match LangEntries(header, parseFloat)
      case Failure(e) => Failure(e)
      case Success(langs) =>
        var ranked := Sorting.SortBy(PreferredLangs(langs, available), LangBefore);
        SortIsRanking(PreferredLangs(langs, available));
        RankingNames(ranked, langs, available);
        Success(LangNames(ranked))
  }

  /** The stable sort gives one of the rankings `sort.Slice` may give. */
  lemma SortIsRanking(langs: seq<Lang>)
    ensures IsRanking(Sorting.SortBy(langs, LangBefore), langs)
  {
    Sorting.SortByPermutes(langs, LangBefore);
    Sorting.SortBySorted(langs, LangBefore);
  }

  /**
   * Past the shortcut, the answer is an error iff some piece has a bad
   * quality; otherwise it is the kept languages by non-increasing quality,
   * a permutation of them, each named by a candidate.
   */
  lemma NegotiateLanguagesSpec(header: string, available: seq<string>, parseFloat: FloatParser)
    requires header != "" && |available| > 0 && header != "*"
    ensures NegotiateLanguages(header, available, parseFloat).Failure? ==>
              exists i :: 0 <= i < |Split(header, ",")| && LangOf(Split(header, ",")[i], parseFloat).Failure?
    ensures (exists i :: 0 <= i < |Split(header, ",")| && LangOf(Split(header, ",")[i], parseFloat).Failure?) ==>
              NegotiateLanguages(header, available, parseFloat).Failure?
    ensures LangEntries(header, parseFloat).Success? ==>
              var ranked := Sorting.SortBy(PreferredLangs(LangEntries(header, parseFloat).value, available), LangBefore);
              multiset(ranked) == multiset(PreferredLangs(LangEntries(header, parseFloat).value, available))
              && (forall i, j :: 0 <= i < j < |ranked| ==> ranked[i].quality >= ranked[j].quality)
              && NegotiateLanguages(header, available, parseFloat) == Success(LangNames(ranked))
              && (forall s :: s in LangNames(ranked) ==> s in available)
  {
    LangEntriesFailure(header, parseFloat);
    if LangEntries(header, parseFloat).Success? {
      var preferred := PreferredLangs(LangEntries(header, parseFloat).value, available);
      var ranked := Sorting.SortBy(preferred, LangBefore);
      PreferredLangsMembers(LangEntries(header, parseFloat).value, available);
      Sorting.SortByPermutes(preferred, LangBefore);
      Sorting.SortBySorted(preferred, LangBefore);
      forall s | s in LangNames(ranked)
        ensures s in available
      {
        var i :| 0 <= i < |ranked| && LangNames(ranked)[i] == s;
        assert ranked[i] in multiset(preferred);
      }
    }
  }

  /** The shortcut: an empty header, `*` or no candidates give the candidates back unchanged. */
  lemma NegotiateLanguagesShortcut(header: string, available: seq<string>, parseFloat: FloatParser)
    ensures header == "" || header == "*" || available == [] ==> NegotiateLanguages(header, available, parseFloat) == Success(available)
    ensures NegotiateLanguages(header, available, parseFloat).Success? ==>
              forall s :: s in NegotiateLanguages(header, available, parseFloat).value ==> s in available
  {
    if header != "" && |available| > 0 && header != "*" {
      NegotiateLanguagesSpec(header, available, parseFloat);
    }
  }

  /** `sortLanguagesByPriority`: some ranking of the slice, ties in no promised order. */
  method SortLanguagesByPriority(a: array<Lang>)
    modifies a
    ensures IsRanking(a[..], old(a[..]))
  {
    ghost var before := a[..];
    Sorting.SortInPlace(a, LangBefore);
    SortIsRanking(before);
  }

  /** `getLanguages`. */
  method GetLanguages(a: array<Lang>) returns (names: seq<string>)
    ensures names == LangNames(a[..])
  {
    var result := new string[a.Length];
    for i := 0 to a.Length
      invariant forall k :: 0 <= k < i ==> result[k] == a[k].name
    {
      result[i] := a[i].name;
    }
    names := result[..];
  }

  /**
   * `ParseLanguages`: the candidates for the shortcut headers, the error of
   * a bad quality, or the names of some ranking of the kept languages.
   */
  method ParseLanguages(header: string, available: seq<string>, parseFloat: FloatParser) returns (r: Result<seq<string>, string>)
    ensures header == "" || |available| == 0 || header == "*" ==> r == Success(available)
    ensures header != "" && |available| > 0 && header != "*" && LangEntries(header, parseFloat).Failure? ==>
              r == Failure(LangEntries(header, parseFloat).error)
    ensures header != "" && |available| > 0 && header != "*" && LangEntries(header, parseFloat).Success? ==>
              r.Success? && exists ranked :: IsRanking(ranked, PreferredLangs(LangEntries(header, parseFloat).value, available))
                                              && r.value == LangNames(ranked)
  {
    if header == "" || |available| == 0 || header == "*" {
      return Success(available);
    }
    var parsed := SplitLanguages(header, parseFloat);
    if parsed.Failure? {
      return Failure(parsed.error);
    }
    var preferred := FindPreferredLanguages(parsed.value, available);
    var a := new Lang[|preferred|](i requires 0 <= i < |preferred| => preferred[i]);
    assert a[..] == preferred;
    SortLanguagesByPriority(a);
    var names := GetLanguages(a);
    assert IsRanking(a[..], preferred);
    return Success(names);
  }
}

=== FILE: media.dfy ===
/**
 * The `Accept` pipeline of media.go: split the header on `,`, parse every
 * piece into a media range with a quality and parameters, keep the pieces
 * that some candidate admits, sort them by quality (stably) and print each
 * as `type/subtype`.  Also the parameter helpers that charset.go shares.
 */
module Media {
  import opened Wrappers
  import opened GoStrings
  import Sorting

  datatype MediaType = MediaType(typ: string, subtype: string, quality: real, parameters: map<string, string>)

  // ------------------------------------------------------------ parameters

  predicate IsQuoted(v: string) {
    |v| >= 2 && v[0] == '"' && v[|v| - 1] == '"'
  }

  /** Drops one pair of surrounding double quotes; a lone `"` stays as it is. */
  function Unquote(v: string): (u: string) {
    if IsQuoted(v) then v[1..|v| - 1] else v
  }

  /**
   * `splitKeyValuePair`: the trimmed key and value around the first `=`, the
   * value unquoted; `("", "")` when there is no `=`.
   */
  function SplitKeyValuePair(pair: string): (kv: (string, string))
    ensures '=' !in pair ==> kv == ("", "")
    ensures '=' in pair ==> Trimmed(kv.0) && '=' !in kv.0
  {
    ContainsChar(pair, '=');
    SplitN2Spec(pair, "=");
    var parts := SplitN2(pair, "=");
    if |parts| != 2 then ("", "")
    else
      ContainsChar(parts[0], '=');
      TrimSpaceSubset(parts[0], '=');
      (TrimSpace(parts[0]), Unquote(TrimSpace(parts[1])))
  }

  /**
   * `splitKeyValuePair` as written: None where the slice `value[1:len(value)-1]`
   * panics.  Wherever it does not panic it agrees with SplitKeyValuePair.
   */
  function SplitKeyValuePairAsWritten(pair: string): (r: Option<(string, string)>)
    ensures r.Some? ==> r.value == SplitKeyValuePair(pair)
  {
    ContainsChar(pair, '=');
    SplitN2Spec(pair, "=");
    var parts := SplitN2(pair, "=");
    if |parts| != 2 then Some(("", ""))
    else
      var key := TrimSpace(parts[0]);
      var value := TrimSpace(parts[1]);
      if |value| >= 1 && value[0] == '"' && value[|value| - 1] == '"' then
        if 1 <= |value| - 1 then Some((key, value[1..|value| - 1])) else None
      else Some((key, value))
  }

  /** The parameter `q="` makes the code as written slice out of bounds. */
  lemma LoneQuotePanics()
    ensures SplitKeyValuePairAsWritten("q=\"").None?
  {
    CutAtChar("q", '=', "\"");
    assert "q" + "=" + "\"" == "q=\"";
    assert [] + "\"" + [] == "\"";
    TrimSpaceUnpads([], "\"", []);
  }

  /** Wherever the code as written does not panic, it agrees with SplitKeyValuePair. */
  lemma AsWrittenAgrees(pair: string)
    ensures SplitKeyValuePairAsWritten(pair).Some? ==> SplitKeyValuePairAsWritten(pair).value == SplitKeyValuePair(pair)
    ensures SplitKeyValuePairAsWritten(pair).None?
        <==> |SplitN2(pair, "=")| == 2 && TrimSpace(SplitN2(pair, "=")[1]) == "\""
  {
    ContainsChar(pair, '=');
    SplitN2Spec(pair, "=");
  }

  lemma TrimmedJoin(a: string, c: char, b: string)
    requires Trimmed(a) && Trimmed(b) && !IsSpace(c)
    ensures Trimmed(a + [c] + b)
  {
  }

  /** Formatting `k=v` (with optional white space around `=`) and splitting it gives back `k` and `v`. */
  lemma KeyValueRoundTrip(k: string, v: string, sk: string, sv: string)
    requires Trimmed(k) && '=' !in k && Trimmed(v) && !IsQuoted(v)
    requires AllSpace(sk) && AllSpace(sv)
    ensures SplitKeyValuePair(k + sk + "=" + sv + v) == (k, v)
  {
    assert '=' !in k + sk by {
      assert forall i :: 0 <= i < |sk| ==> sk[i] != '=';
    }
    assert k + sk + "=" + sv + v == (k + sk) + ['='] + (sv + v);
    CutAtChar(k + sk, '=', sv + v);
    assert k + sk == [] + k + sk;
    TrimSpaceUnpads([], k, sk);
    assert sv + v == sv + v + [];
    TrimSpaceUnpads(sv, v, []);
  }

  /** A trimmed key without `=` and a trimmed value, joined by `=`, split back apart. */
  lemma SplitTrimmedPair(k: string, v: string)
    requires Trimmed(k) && '=' !in k && Trimmed(v)
    ensures SplitKeyValuePair(k + "=" + v) == (k, Unquote(v))
  {
    CutAtChar(k, '=', v);
    TrimmedIsFixed(k);
    TrimmedIsFixed(v);
  }

  /** A quoted value loses exactly its quotes. */
  lemma QuotedValueRoundTrip(k: string, u: string)
    requires Trimmed(k) && '=' !in k
    ensures SplitKeyValuePair(k + "=\"" + u + "\"") == (k, u)
  {
    var v := "\"" + u + "\"";
    assert k + "=\"" + u + "\"" == k + "=" + v;
    SplitTrimmedPair(k, v);
    assert v[1..|v| - 1] == u;
  }

  /** `splitParameters`'s result: the `;`-separated pieces of `s`, each trimmed. */
  function ParameterList(s: string): (ps: seq<string>)
    ensures |ps| == |Split(s, ";")|
    ensures forall i :: 0 <= i < |ps| ==> Trimmed(ps[i])
  {
    var parts := Split(s, ";");
    seq(|parts|, i requires 0 <= i < |parts| => TrimSpace(parts[i]))
  }

  /** `splitParameters`. */
  method SplitParameters(s: string) returns (ps: seq<string>)
    ensures ps == ParameterList(s)
    ensures forall i :: 0 <= i < |ps| ==> Trimmed(ps[i])
  {
    var parts := Split(s, ";");
    ps := [];
    for i := 0 to |parts|
      invariant |ps| == i
      invariant forall k :: 0 <= k < i ==> ps[k] == TrimSpace(parts[k])
    {
      ps := ps + [TrimSpace(parts[i])];
    }
  }

  function Key(param: string): (k: string) {
    SplitKeyValuePair(param).0
  }

  /** The map `parseMediaType` fills from its parameters: a later key overwrites an earlier one. */
  function ParamMap(ps: seq<string>): (params: map<string, string>) {
    if ps == [] then map[]
    else
      var kv := SplitKeyValuePair(ps[|ps| - 1]);
      ParamMap(ps[..|ps| - 1])[kv.0 := kv.1]
  }

  /** The keys of the map are the keys of the parameters. */
  lemma {:induction false} ParamMapKeys(ps: seq<string>, k: string)
    ensures k in ParamMap(ps) <==> exists i :: 0 <= i < |ps| && Key(ps[i]) == k
    decreases |ps|
  {
    if ps == [] {
      assert ParamMap(ps) == map[];
    } else {
      var n := |ps|;
      var ps' := ps[..n - 1];
      ParamMapKeys(ps', k);
      ParamMapStep(ps, k);
      if k in ParamMap(ps) {
        if Key(ps[n - 1]) != k {
          var i :| 0 <= i < |ps'| && Key(ps'[i]) == k;
          assert ps[i] == ps'[i];
        }
      } else {
        forall i | 0 <= i < n
          ensures Key(ps[i]) != k
        {
          if i < n - 1 {
            assert ps[i] == ps'[i];
          }
        }
      }
    }
  }

  /** The last parameter adds its key to the map of the ones before it. */
  lemma ParamMapStep(ps: seq<string>, k: string)
    requires ps != []
    ensures k in ParamMap(ps) <==> k in ParamMap(ps[..|ps| - 1]) || Key(ps[|ps| - 1]) == k
  {
  }

  /** The last parameter with a given key decides its value: the last `q=` wins. */
  lemma {:induction false} ParamMapLastWins(ps: seq<string>, i: nat)
    requires i < |ps|
    requires forall j :: i < j < |ps| ==> Key(ps[j]) != Key(ps[i])
    ensures Key(ps[i]) in ParamMap(ps)
    ensures ParamMap(ps)[Key(ps[i])] == SplitKeyValuePair(ps[i]).1
    decreases |ps|
  {
    if i < |ps| - 1 {
      var ps' := ps[..|ps| - 1];
      assert ps'[i] == ps[i];
      ParamMapLastWins(ps', i);
    }
  }

  // ---------------------------------------------------------- media ranges

  /** The trimmed text before the first `;`: the media range of a media entry, the name of a charset entry. */
  function BeforeSemicolon(s: string): (head: string) {
    TrimSpace(SplitN2(TrimSpace(s), ";")[0])
  }

  /** The parameters after the first `;`, collected as `parseMediaType` does. */
  function MediaParamsOf(s: string): (params: map<string, string>) {
    var parts := SplitN2(TrimSpace(s), ";");
    if |parts| > 1 then ParamMap(ParameterList(parts[1])) else map[]
  }

  /** The value of `q` when it parses, 1 otherwise. */
  function MediaQuality(params: map<string, string>, parseFloat: FloatParser): (q: real) {
    if "q" in params && parseFloat(params["q"]).Some? then parseFloat(params["q"]).value else 1.0
  }

  /** `parseMediaType`: None exactly when the range has no `/`. */
  function MediaTypeOf(s: string, parseFloat: FloatParser): (r: Option<MediaType>)
    ensures r.None? <==> '/' !in BeforeSemicolon(s)
    ensures r.Some? ==> r.value.quality == MediaQuality(MediaParamsOf(s), parseFloat)
    ensures r.Some? ==> r.value.parameters == MediaParamsOf(s)
  {
    var params := MediaParamsOf(s);
    var q := MediaQuality(params, parseFloat);
    ContainsChar(BeforeSemicolon(s), '/');
    SplitN2Spec(BeforeSemicolon(s), "/");
    var rangeParts := SplitN2(BeforeSemicolon(s), "/");
    if |rangeParts| != 2 then None
    else Some(MediaType(TrimSpace(rangeParts[0]), TrimSpace(rangeParts[1]), q, params))
  }

  /** `parseMediaType`, filling the parameter map in a loop. */
  method ParseMediaType(s: string, parseFloat: FloatParser) returns (r: Option<MediaType>)
    ensures r == MediaTypeOf(s, parseFloat)
  {
    var parts := SplitN2(TrimSpace(s), ";");
    var mediaRange := TrimSpace(parts[0]);
    var params: map<string, string> := map[];
    if |parts| > 1 {
      var ps := SplitParameters(parts[1]);
      params := FillParameters(ps);
    }
    assert params == MediaParamsOf(s);
    var q := 1.0;
    if "q" in params {
      match parseFloat(params["q"])
      case Some(x) => q := x;
      case None =>
    }
    var rangeParts := SplitN2(mediaRange, "/");
    if |rangeParts| != 2 {
      return None;
    }
    return Some(MediaType(TrimSpace(rangeParts[0]), TrimSpace(rangeParts[1]), q, params));
  }

  /** The loop of `parseMediaType` that stores each parameter in the map. */
  method FillParameters(ps: seq<string>) returns (params: map<string, string>)
    ensures params == ParamMap(ps)
  {
    params := map[];
    for i := 0 to |ps|
      invariant params == ParamMap(ps[..i])
    {
      var kv := SplitKeyValuePair(ps[i]);
      params := params[kv.0 := kv.1];
      assert ps[..i + 1][..i] == ps[..i];
    }
    assert ps[..|ps|] == ps;
  }

  /** A bare `type/subtype` parses to itself with quality 1 and no parameters. */
  lemma ParseBareRange(t: string, st: string, parseFloat: FloatParser)
    requires Trimmed(t) && Trimmed(st) && '/' !in t && ';' !in t && ';' !in st
    ensures MediaTypeOf(t + "/" + st, parseFloat) == Some(MediaType(t, st, 1.0, map[]))
  {
    var s := t + "/" + st;
    TrimmedJoin(t, '/', st);
    TrimmedIsFixed(s);
    assert TrimSpace(s) == s;
    assert ';' !in s;
    NoCut(s, ';');
    assert SplitN2(s, ";") == [s];
    assert BeforeSemicolon(s) == s;
    assert MediaParamsOf(s) == map[];
    assert MediaQuality(map[], parseFloat) == 1.0;
    CutAtChar(t, '/', st);
    assert SplitN2(s, "/") == [t, st];
    TrimmedIsFixed(t);
    TrimmedIsFixed(st);
  }

  /** `type/subtype;key=value` parses to one parameter, and its quality comes from it. */
  lemma ParseRangeWithParameter(t: string, st: string, k: string, v: string, parseFloat: FloatParser)
    requires Trimmed(t) && Trimmed(st) && '/' !in t && ';' !in t && ';' !in st
    requires Trimmed(k) && '=' !in k && ';' !in k
    requires Trimmed(v) && !IsQuoted(v) && ';' !in v
    ensures MediaTypeOf(t + "/" + st + ";" + k + "=" + v, parseFloat)
         == Some(MediaType(t, st, MediaQuality(map[k := v], parseFloat), map[k := v]))
  {
    var range := t + "/" + st;
    var param := k + "=" + v;
    TrimmedJoin(t, '/', st);
    TrimmedJoin(k, '=', v);
    assert t + "/" + st + ";" + k + "=" + v == range + ";" + param;
    SplitAtSemicolon(range, param);
    ParamsOfOne(param, k, v);
    RangeParts(t, st);
  }

  /** `type/subtype;p1;...;pn` parses to the map its pieces build, and its quality comes from that map. */
  lemma ParseRangeWithParameters(t: string, st: string, ps: seq<string>, parseFloat: FloatParser)
    requires Trimmed(t) && Trimmed(st) && '/' !in t && ';' !in t && ';' !in st
    requires |ps| >= 1 && forall i :: 0 <= i < |ps| ==> Trimmed(ps[i]) && ';' !in ps[i]
    ensures MediaTypeOf(t + "/" + st + ";" + Join(ps, ";"), parseFloat)
         == Some(MediaType(t, st, MediaQuality(ParamMap(ps), parseFloat), ParamMap(ps)))
  {
    var range := t + "/" + st;
    TrimmedJoin(t, '/', st);
    SplitAtSemicolons(range, ps);
    RangeParts(t, st);
  }

  /** A trimmed range without `;`, then `;` and parameters joined by `;`. */
  lemma SplitAtSemicolons(range: string, ps: seq<string>)
    requires Trimmed(range) && ';' !in range
    requires |ps| >= 1 && forall i :: 0 <= i < |ps| ==> Trimmed(ps[i]) && ';' !in ps[i]
    ensures BeforeSemicolon(range + ";" + Join(ps, ";")) == range
    ensures MediaParamsOf(range + ";" + Join(ps, ";")) == ParamMap(ps)
  {
    TrimmedJoinAll(ps, ';');
    CutTrimmedAtSemicolon(range, Join(ps, ";"));
    TrimmedIsFixed(range);
    ParameterListOfJoin(ps);
  }

  /** Joining trimmed pieces with a separator that is not white space gives a trimmed string. */
  lemma {:induction false} TrimmedJoinAll(ps: seq<string>, c: char)
    requires !IsSpace(c) && forall i :: 0 <= i < |ps| ==> Trimmed(ps[i])
    ensures Trimmed(Join(ps, [c]))
    decreases |ps|
  {
    if |ps| > 1 {
      TrimmedJoinAll(ps[1..], c);
      TrimmedJoin(ps[0], c, Join(ps[1..], [c]));
    }
  }

  /** Trimmed parameters without `;`, joined by `;`, come back as the same list. */
  lemma ParameterListOfJoin(ps: seq<string>)
    requires |ps| >= 1 && forall i :: 0 <= i < |ps| ==> Trimmed(ps[i]) && ';' !in ps[i]
    ensures ParameterList(Join(ps, ";")) == ps
  {
    SplitJoin(ps, ';');
    var list := ParameterList(Join(ps, ";"));
    forall i | 0 <= i < |ps|
      ensures list[i] == ps[i]
    {
      TrimmedIsFixed(ps[i]);
    }
  }

  /** A trimmed range and a trimmed parameter, joined by `;`. */
  lemma SplitAtSemicolon(range: string, param: string)
    requires Trimmed(range) && Trimmed(param) && ';' !in range && ';' !in param
    ensures BeforeSemicolon(range + ";" + param) == range
    ensures MediaParamsOf(range + ";" + param) == ParamMap([param])
  {
    CutTrimmedAtSemicolon(range, param);
    TrimmedIsFixed(range);
    ParameterListOfOne(param);
  }

  /** A trimmed `range;param` cuts at its one `;`. */
  lemma CutTrimmedAtSemicolon(range: string, param: string)
    requires Trimmed(range) && Trimmed(param) && ';' !in range
    ensures SplitN2(TrimSpace(range + ";" + param), ";") == [range, param]
  {
    var s := range + ";" + param;
    TrimmedJoin(range, ';', param);
    TrimmedIsFixed(s);
    CutAtChar(range, ';', param);
  }

  /** A trimmed parameter without `;` is a parameter list of one. */
  lemma ParameterListOfOne(param: string)
    requires Trimmed(param) && ';' !in param
    ensures ParameterList(param) == [param]
  {
    NoCut(param, ';');
    TrimmedIsFixed(param);
    var ps := ParameterList(param);
    assert |ps| == 1 && ps[0] == param;
  }

  /** A trimmed `t/st` cuts into `t` and `st`. */
  lemma RangeParts(t: string, st: string)
    requires Trimmed(t) && Trimmed(st) && '/' !in t
    ensures SplitN2(t + "/" + st, "/") == [t, st]
    ensures TrimSpace(t) == t && TrimSpace(st) == st
  {
    CutAtChar(t, '/', st);
    TrimmedIsFixed(t);
    TrimmedIsFixed(st);
  }

  lemma ParamsOfOne(param: string, k: string, v: string)
    requires param == k + "=" + v
    requires Trimmed(k) && '=' !in k && Trimmed(v) && !IsQuoted(v)
    ensures ParamMap([param]) == map[k := v]
  {
    SplitTrimmedPair(k, v);
    assert [param][..0] == [];
  }

  // ------------------------------------------------------------- matching

  /** A missing parameter reads as Go's zero value, the empty string. */
  function Lookup(params: map<string, string>, k: string): (v: string) {
    if k in params then params[k] else ""
  }

  /**
   * `matchMediaType`: does the candidate string `available` admit the header
   * entry `m`?  Only a candidate whose range holds a `/` admits anything.
   */
  predicate MatchMediaType(m: MediaType, available: string, parseFloat: FloatParser)
    ensures MatchMediaType(m, available, parseFloat) ==> '/' in BeforeSemicolon(available)
  {
    match MediaTypeOf(available, parseFloat)
    case None => false
    case Some(c) =>
      if c.typ != "*" && m.typ != c.typ then false
      else if c.subtype != "*" && m.subtype != c.subtype then false
      else forall k | k in c.parameters :: c.parameters[k] == "*" || Lookup(m.parameters, k) == c.parameters[k]
  }

  /** The wildcard candidate, type and subtype `*`, admits every entry. */
  lemma StarStarAdmitsAll(m: MediaType, parseFloat: FloatParser)
    ensures MatchMediaType(m, "*/*", parseFloat)
  {
    assert "*/*" == "*" + "/" + "*";
    ParseBareRange("*", "*", parseFloat);
  }

  /**
   * Against a candidate `t/st`, an entry matches iff its type is `t` and its
   * subtype is `st`, where a `*` on the candidate side admits any; a `*` in
   * the header entry is no wildcard.
   */
  lemma MatchBareCandidate(m: MediaType, t: string, st: string, parseFloat: FloatParser)
    requires Trimmed(t) && Trimmed(st) && '/' !in t && ';' !in t && ';' !in st
    ensures MatchMediaType(m, t + "/" + st, parseFloat)
        <==> (t == "*" || m.typ == t) && (st == "*" || m.subtype == st)
  {
    ParseBareRange(t, st, parseFloat);
    MatchParsed(m, t + "/" + st, MediaType(t, st, 1.0, map[]), parseFloat);
  }

  /**
   * A candidate parameter `k=v` is met by an entry whose parameter `k` is `v`,
   * a missing one reading as empty; the value `*` is met by every entry.
   */
  lemma MatchCandidateParameter(m: MediaType, t: string, st: string, k: string, v: string, parseFloat: FloatParser)
    requires Trimmed(t) && Trimmed(st) && '/' !in t && ';' !in t && ';' !in st
    requires Trimmed(k) && '=' !in k && ';' !in k
    requires Trimmed(v) && !IsQuoted(v) && ';' !in v
    ensures MatchMediaType(m, t + "/" + st + ";" + k + "=" + v, parseFloat)
        <==> (t == "*" || m.typ == t) && (st == "*" || m.subtype == st) && (v == "*" || Lookup(m.parameters, k) == v)
  {
    var c := MediaType(t, st, MediaQuality(map[k := v], parseFloat), map[k := v]);
    ParseRangeWithParameter(t, st, k, v, parseFloat);
    MatchParsed(m, t + "/" + st + ";" + k + "=" + v, c, parseFloat);
    OneParameterMet(m.parameters, k, v);
  }

  /**
   * Against a candidate `t/st;p1;...;pn`, an entry matches iff the types
   * match as for a bare candidate and every parameter of the map the
   * candidate's pieces build is `*` or equals the entry's value.
   */
  lemma MatchCandidateParameters(m: MediaType, t: string, st: string, ps: seq<string>, parseFloat: FloatParser)
    requires Trimmed(t) && Trimmed(st) && '/' !in t && ';' !in t && ';' !in st
    requires |ps| >= 1 && forall i :: 0 <= i < |ps| ==> Trimmed(ps[i]) && ';' !in ps[i]
    ensures MatchMediaType(m, t + "/" + st + ";" + Join(ps, ";"), parseFloat)
        <==> (t == "*" || m.typ == t) && (st == "*" || m.subtype == st)
             && forall k | k in ParamMap(ps) :: ParamMap(ps)[k] == "*" || Lookup(m.parameters, k) == ParamMap(ps)[k]
  {
    var c := MediaType(t, st, MediaQuality(ParamMap(ps), parseFloat), ParamMap(ps));
    ParseRangeWithParameters(t, st, ps, parseFloat);
    MatchParsed(m, t + "/" + st + ";" + Join(ps, ";"), c, parseFloat);
  }

  /** Matching against a candidate that parses to `c`. */
  lemma MatchParsed(m: MediaType, available: string, c: MediaType, parseFloat: FloatParser)
    requires MediaTypeOf(available, parseFloat) == Some(c)
    ensures MatchMediaType(m, available, parseFloat)
        <==> (c.typ == "*" || m.typ == c.typ) && (c.subtype == "*" || m.subtype == c.subtype)
             && forall k | k in c.parameters :: c.parameters[k] == "*" || Lookup(m.parameters, k) == c.parameters[k]
  {
  }

  /** A single candidate parameter `k=v` is met iff `v` is `*` or the entry's `k` is `v`. */
  lemma OneParameterMet(params: map<string, string>, k: string, v: string)
    ensures (forall key | key in map[k := v] :: map[k := v][key] == "*" || Lookup(params, key) == map[k := v][key])
        <==> v == "*" || Lookup(params, k) == v
  {
  }

  // ------------------------------------------------------------- pipeline

  /** Every piece read as a media range, or None where it has no `/`. */
  function ParsedMediaTypes(pieces: seq<string>, parseFloat: FloatParser): (os: seq<Option<MediaType>>)
    ensures |os| == |pieces|
  {
    seq(|pieces|, i requires 0 <= i < |pieces| => MediaTypeOf(pieces[i], parseFloat))
  }

  /** The media ranges that parsed and have a quality above 0, in order. */
  function PositiveMediaTypes(os: seq<Option<MediaType>>): (ms: seq<MediaType>) {
    if os == [] then []
    else
      var rest := PositiveMediaTypes(os[..|os| - 1]);
      match os[|os| - 1]
      case Some(m) => if m.quality > 0.0 then rest + [m] else rest
      case None => rest
  }

  lemma {:induction false} PositiveMediaTypesMembers(os: seq<Option<MediaType>>)
    ensures forall m :: m in PositiveMediaTypes(os) <==> Some(m) in os && m.quality > 0.0
    decreases |os|
  {
    if os != [] {
      PositiveMediaTypesMembers(os[..|os| - 1]);
      assert os == os[..|os| - 1] + [os[|os| - 1]];
    }
  }

  /** Each media range that parsed with quality above 0 is kept once per piece it came from. */
  lemma {:induction false} PositiveMediaTypesCount(os: seq<Option<MediaType>>, m: MediaType)
    ensures multiset(PositiveMediaTypes(os))[m] == if m.quality > 0.0 then multiset(os)[Some(m)] else 0
    decreases |os|
  {
    if os != [] {
      var init, last := os[..|os| - 1], os[|os| - 1];
      PositiveMediaTypesCount(init, m);
      assert multiset(os)[Some(m)] == multiset(init)[Some(m)] + if last == Some(m) then 1 else 0 by {
        assert os == init + [last];
      }
    }
  }

  /** `splitMediaTypes`'s result: the pieces that parse, with quality above 0, in header order. */
  function MediaEntries(pieces: seq<string>, parseFloat: FloatParser): (entries: seq<MediaType>) {
    PositiveMediaTypes(ParsedMediaTypes(pieces, parseFloat))
  }

  /** An entry survives iff some piece parses to it with a positive quality. */
  lemma MediaEntriesMembers(pieces: seq<string>, parseFloat: FloatParser, m: MediaType)
    ensures m in MediaEntries(pieces, parseFloat)
        <==> m.quality > 0.0 && exists i :: 0 <= i < |pieces| && MediaTypeOf(pieces[i], parseFloat) == Some(m)
  {
    var parsed := ParsedMediaTypes(pieces, parseFloat);
    PositiveMediaTypesMembers(parsed);
    if Some(m) in parsed {
      var i :| 0 <= i < |parsed| && parsed[i] == Some(m);
      assert MediaTypeOf(pieces[i], parseFloat) == Some(m);
    }
    if exists i :: 0 <= i < |pieces| && MediaTypeOf(pieces[i], parseFloat) == Some(m) {
      var i :| 0 <= i < |pieces| && MediaTypeOf(pieces[i], parseFloat) == Some(m);
      assert parsed[i] == Some(m);
    }
  }

  /** `splitMediaTypes`. */
  method SplitMediaTypes(accept: string, parseFloat: FloatParser) returns (entries: seq<MediaType>)
    ensures entries == MediaEntries(Split(accept, ","), parseFloat)
  {
    var pieces := Split(accept, ",");
    entries := [];
    for i := 0 to |pieces|
      invariant entries == PositiveMediaTypes(ParsedMediaTypes(pieces, parseFloat)[..i])
    {
      var m := ParseMediaType(pieces[i], parseFloat);
      if m.Some? && m.value.quality > 0.0 {
        entries := entries + [m.value];
      }
      assert ParsedMediaTypes(pieces, parseFloat)[..i + 1][..i] == ParsedMediaTypes(pieces, parseFloat)[..i];
    }
    assert ParsedMediaTypes(pieces, parseFloat)[..|pieces|] == ParsedMediaTypes(pieces, parseFloat);
  }

  /**
   * `isMediaTypeAccepted`: with no candidates every entry is accepted, and
   * so it is when the wildcard candidate (type and subtype `*`) is among them.
   */
  predicate IsMediaTypeAccepted(m: MediaType, available: seq<string>, parseFloat: FloatParser)
    ensures available == [] || "*/*" in available ==> IsMediaTypeAccepted(m, available, parseFloat)
  {
    StarStarAdmitsAll(m, parseFloat);
    |available| == 0 || exists i :: 0 <= i < |available| && MatchMediaType(m, available[i], parseFloat)
  }

  /** The entries that `ParseMediaTypes` keeps, in header order. */
  function AcceptedMediaTypes(entries: seq<MediaType>, available: seq<string>, parseFloat: FloatParser): (kept: seq<MediaType>) {
    if entries == [] then []
    else
      var rest := AcceptedMediaTypes(entries[..|entries| - 1], available, parseFloat);
      var m := entries[|entries| - 1];
      if IsMediaTypeAccepted(m, available, parseFloat) then rest + [m] else rest
  }

  /** The filter keeps an entry iff some candidate admits it, and keeps all of them when there are no candidates. */
  lemma {:induction false} AcceptedMediaTypesMembers(entries: seq<MediaType>, available: seq<string>, parseFloat: FloatParser)
    ensures forall m :: m in AcceptedMediaTypes(entries, available, parseFloat)
                    <==> m in entries && IsMediaTypeAccepted(m, available, parseFloat)
    ensures available == [] ==> AcceptedMediaTypes(entries, available, parseFloat) == entries
    decreases |entries|
  {
    if entries != [] {
      AcceptedMediaTypesMembers(entries[..|entries| - 1], available, parseFloat);
      assert entries == entries[..|entries| - 1] + [entries[|entries| - 1]];
    }
  }

  /** An accepted entry is kept as often as it occurs, duplicates included; any other is dropped. */
  lemma {:induction false} AcceptedMediaTypesCount(entries: seq<MediaType>, available: seq<string>, parseFloat: FloatParser, m: MediaType)
    ensures multiset(AcceptedMediaTypes(entries, available, parseFloat))[m]
         == if IsMediaTypeAccepted(m, available, parseFloat) then multiset(entries)[m] else 0
    decreases |entries|
  {
    if entries != [] {
      AcceptedMediaTypesCount(entries[..|entries| - 1], available, parseFloat, m);
      assert entries == entries[..|entries| - 1] + [entries[|entries| - 1]];
    }
  }

  /** `sortMediaTypesByPriority`'s `less`: higher quality first. */
  function QualityBefore(a: MediaType, b: MediaType): bool {
    a.quality > b.quality
  }

  function QualityOf(m: MediaType): real {
    m.quality
  }

  /** The accepted entries of the header, before sorting. */
  function PreferredMediaTypes(header: string, available: seq<string>, parseFloat: FloatParser): (preferred: seq<MediaType>) {
    var accept := if header == "" then "*/*" else header;
    AcceptedMediaTypes(MediaEntries(Split(accept, ","), parseFloat), available, parseFloat)
  }

  function RankedMediaTypes(header: string, available: seq<string>, parseFloat: FloatParser): (ranked: seq<MediaType>) {
    Sorting.SortBy(PreferredMediaTypes(header, available, parseFloat), QualityBefore)
  }

  /** `getMediaTypes`'s result: `type/subtype` per entry, parameters dropped. */
  function MediaNames(ms: seq<MediaType>): (names: seq<string>)
    ensures |names| == |ms|
  {
    seq(|ms|, i requires 0 <= i < |ms| => ms[i].typ + "/" + ms[i].subtype)
  }

  /**
   * `ParseMediaTypes` as a function of the header value and the candidates:
   * one name per accepted entry.
   */
  function NegotiateMediaTypes(header: string, available: seq<string>, parseFloat: FloatParser): (names: seq<string>)
    ensures |names| == |PreferredMediaTypes(header, available, parseFloat)|
  {
    MediaNames(RankedMediaTypes(header, available, parseFloat))
  }

  /**
   * The ranking is a permutation of the accepted entries, by non-increasing
   * quality, and entries of equal quality keep their header order.
   */
  lemma RankedMediaTypesOrder(header: string, available: seq<string>, parseFloat: FloatParser)
    ensures var ranked := RankedMediaTypes(header, available, parseFloat);
            var preferred := PreferredMediaTypes(header, available, parseFloat);
            multiset(ranked) == multiset(preferred)
            && (forall i, j :: 0 <= i < j < |ranked| ==> ranked[i].quality >= ranked[j].quality)
            && (forall q :: Sorting.Select(ranked, QualityOf, q) == Sorting.Select(preferred, QualityOf, q))
  {
    var preferred := PreferredMediaTypes(header, available, parseFloat);
    Sorting.SortByPermutes(preferred, QualityBefore);
    Sorting.SortBySorted(preferred, QualityBefore);
    forall q {
      Sorting.SortByStable(preferred, QualityBefore, QualityOf, q);
    }
  }

  /**
   * The result names exactly the accepted entries, one string per entry
   * (duplicates kept), in ranked order.
   */
  lemma NegotiateMediaTypesNames(header: string, available: seq<string>, parseFloat: FloatParser)
    ensures |NegotiateMediaTypes(header, available, parseFloat)| == |PreferredMediaTypes(header, available, parseFloat)|
    ensures forall i :: 0 <= i < |NegotiateMediaTypes(header, available, parseFloat)| ==>
              NegotiateMediaTypes(header, available, parseFloat)[i]
              == RankedMediaTypes(header, available, parseFloat)[i].typ + "/" + RankedMediaTypes(header, available, parseFloat)[i].subtype
    ensures forall s :: s in NegotiateMediaTypes(header, available, parseFloat) ==>
              exists m :: m in PreferredMediaTypes(header, available, parseFloat) && s == m.typ + "/" + m.subtype
    ensures forall m :: m in PreferredMediaTypes(header, available, parseFloat) ==>
              m.typ + "/" + m.subtype in NegotiateMediaTypes(header, available, parseFloat)
  {
    var preferred := PreferredMediaTypes(header, available, parseFloat);
    Sorting.SortByPermutes(preferred, QualityBefore);
    NamesOfPermutation(RankedMediaTypes(header, available, parseFloat), preferred);
  }

  /** Rearranging the entries rearranges their names: the same names occur. */
  lemma NamesOfPermutation(ranked: seq<MediaType>, preferred: seq<MediaType>)
    requires multiset(ranked) == multiset(preferred)
    ensures forall s :: s in MediaNames(ranked) ==> exists m :: m in preferred && s == m.typ + "/" + m.subtype
    ensures forall m :: m in preferred ==> m.typ + "/" + m.subtype in MediaNames(ranked)
  {
    forall s | s in MediaNames(ranked)
      ensures exists m :: m in preferred && s == m.typ + "/" + m.subtype
    {
      var i :| 0 <= i < |ranked| && MediaNames(ranked)[i] == s;
      assert ranked[i] in multiset(preferred);
    }
    forall m | m in preferred
      ensures m.typ + "/" + m.subtype in MediaNames(ranked)
    {
      assert m in multiset(ranked);
      var i :| 0 <= i < |ranked| && ranked[i] == m;
      assert MediaNames(ranked)[i] == m.typ + "/" + m.subtype;
    }
  }

  /** An empty `Accept` header means any type and subtype: with no candidates that is the answer. */
  lemma EmptyAcceptNoCandidates(parseFloat: FloatParser)
    ensures NegotiateMediaTypes("", [], parseFloat) == ["*/*"]
  {
    var star := EmptyAcceptRanked(parseFloat);
    StarStarName(star);
  }

  /** The name `getMediaTypes` gives the entry of type and subtype `*`. */
  lemma StarStarName(star: MediaType)
    requires star.typ == "*" && star.subtype == "*"
    ensures MediaNames([star]) == ["*/*"]
  {
    assert "*" + "/" + "*" == "*/*";
  }

  /** An empty header with no candidates ranks the single `*` entry. */
  lemma EmptyAcceptRanked(parseFloat: FloatParser) returns (star: MediaType)
    ensures star == MediaType("*", "*", 1.0, map[])
    ensures RankedMediaTypes("", [], parseFloat) == [star]
  {
    star := StarStarEntries(parseFloat);
    assert PreferredMediaTypes("", [], parseFloat) == [star] by {
      AcceptedMediaTypesMembers([star], [], parseFloat);
    }
    Sorting.SortBySingleton(star, QualityBefore);
  }

  /** The entries of the header that an empty one stands for: type and subtype `*`. */
  lemma StarStarEntries(parseFloat: FloatParser) returns (star: MediaType)
    ensures star == MediaType("*", "*", 1.0, map[])
    ensures MediaEntries(Split("*/*", ","), parseFloat) == [star]
  {
    star := MediaType("*", "*", 1.0, map[]);
    assert MediaTypeOf("*/*", parseFloat) == Some(star) by {
      assert "*/*" == "*" + "/" + "*";
      ParseBareRange("*", "*", parseFloat);
    }
    assert Split("*/*", ",") == ["*/*"] by {
      NoCut("*/*", ',');
    }
    OnePiece("*/*", parseFloat, star);
  }

  /** A header of one piece that parses with a positive quality has that one entry. */
  lemma OnePiece(piece: string, parseFloat: FloatParser, m: MediaType)
    requires MediaTypeOf(piece, parseFloat) == Some(m) && m.quality > 0.0
    ensures MediaEntries([piece], parseFloat) == [m]
  {
    var parsed := ParsedMediaTypes([piece], parseFloat);
    assert parsed == [Some(m)];
    assert parsed[..0] == [];
    assert PositiveMediaTypes(parsed) == PositiveMediaTypes(parsed[..0]) + [m];
  }

  /**
   * The `*` type and subtype implied by an empty header are no wildcards for the candidates:
   * a concrete candidate `t/st` is not returned.
   */
  lemma EmptyAcceptConcreteCandidate(t: string, st: string, parseFloat: FloatParser)
    requires Trimmed(t) && Trimmed(st) && '/' !in t && ';' !in t && ';' !in st
    requires t != "*" && st != "*"
    ensures NegotiateMediaTypes("", [t + "/" + st], parseFloat) == []
  {
    var star := StarStarEntries(parseFloat);
    var candidates := [t + "/" + st];
    MatchBareCandidate(star, t, st, parseFloat);
    assert !MatchMediaType(star, candidates[0], parseFloat);
    assert !IsMediaTypeAccepted(star, candidates, parseFloat);
    assert [star][..0] == [];
    assert AcceptedMediaTypes([star], candidates, parseFloat) == [];
    assert PreferredMediaTypes("", candidates, parseFloat) == [];
    assert RankedMediaTypes("", candidates, parseFloat) == [];
  }

  /** The filtering loop of `ParseMediaTypes`. */
  method KeepAccepted(parsed: seq<MediaType>, available: seq<string>, parseFloat: FloatParser) returns (preferred: seq<MediaType>)
    ensures preferred == AcceptedMediaTypes(parsed, available, parseFloat)
  {
    preferred := [];
    for i := 0 to |parsed|
      invariant preferred == AcceptedMediaTypes(parsed[..i], available, parseFloat)
    {
      if IsMediaTypeAccepted(parsed[i], available, parseFloat) {
        preferred := preferred + [parsed[i]];
      }
      assert parsed[..i + 1][..i] == parsed[..i];
    }
    assert parsed[..|parsed|] == parsed;
  }

  /** `sortMediaTypesByPriority`: a stable sort of the slice by descending quality. */
  method SortMediaTypesByPriority(a: array<MediaType>)
    modifies a
    ensures a[..] == Sorting.SortBy(old(a[..]), QualityBefore)
  {
    Sorting.SortInPlace(a, QualityBefore);
  }

  /** `getMediaTypes`. */
  method GetMediaTypes(a: array<MediaType>) returns (names: seq<string>)
    ensures names == MediaNames(a[..])
  {
    var result := new string[a.Length];
    for i := 0 to a.Length
      invariant forall k :: 0 <= k < i ==> result[k] == a[k].typ + "/" + a[k].subtype
    {
      result[i] := a[i].typ + "/" + a[i].subtype;
    }
    names := result[..];
  }

  /** `ParseMediaTypes`: the candidates' view of the `Accept` header, best first. */
  method ParseMediaTypes(header: string, available: seq<string>, parseFloat: FloatParser) returns (r: seq<string>)
    ensures r == NegotiateMediaTypes(header, available, parseFloat)
  {
    var accept := header;
    if accept == "" {
      accept := "*/*";
    }
    var parsed := SplitMediaTypes(accept, parseFloat);
    var preferred := KeepAccepted(parsed, available, parseFloat);
    assert preferred == PreferredMediaTypes(header, available, parseFloat);
    var a := new MediaType[|preferred|](i requires 0 <= i < |preferred| => preferred[i]);
    assert a[..] == preferred;
    SortMediaTypesByPriority(a);
    assert a[..] == RankedMediaTypes(header, available, parseFloat);
    r := GetMediaTypes(a);
  }
}

=== FILE: sorting.dfy ===
/**
 * `sort.SliceStable` (and, for one caller, `sort.Slice`) as insertion sort
 * driven by the caller's `less(x, y)`: "x must come before y".
 * The in-place method is proved equal to the function SortBy, and SortBy is
 * proved to be a permutation, ordered, and stable.
 */
module Sorting {

  /** What Go's sort package expects of `less`. */
  ghost predicate StrictWeakOrder<T(!new)>(less: (T, T) -> bool) {
    (forall x, y :: less(x, y) ==> !less(y, x)) &&
    (forall x, y, z :: !less(x, y) && !less(y, z) ==> !less(x, z))
  }

  /** No element must come before an element to its left. */
  ghost predicate SortedBy<T>(s: seq<T>, less: (T, T) -> bool) {
    forall i, j :: 0 <= i < j < |s| ==> !less(s[j], s[i])
  }

  /** Insert `x` behind the last element of `r` it need not precede. */
  function InsertBy<T>(r: seq<T>, x: T, less: (T, T) -> bool): (t: seq<T>)
    ensures |t| == |r| + 1
  {
    if r == [] then [x]
    else if less(x, r[|r| - 1]) then InsertBy(r[..|r| - 1], x, less) + [r[|r| - 1]]
    else r + [x]
  }

  /** Insertion sort: insert the elements of `s` one by one, left to right; no element is lost or added. */
  function SortBy<T>(s: seq<T>, less: (T, T) -> bool): (sorted: seq<T>)
    ensures |sorted| == |s|
  {
    if s == [] then []
    else InsertBy(SortBy(s[..|s| - 1], less), s[|s| - 1], less)
  }

  lemma {:induction false} InsertByPermutes<T>(r: seq<T>, x: T, less: (T, T) -> bool)
    ensures multiset(InsertBy(r, x, less)) == multiset(r) + multiset{x}
    decreases |r|
  {
    if r != [] && less(x, r[|r| - 1]) {
      assert r == r[..|r| - 1] + [r[|r| - 1]];
      InsertByPermutes(r[..|r| - 1], x, less);
    }
  }

  /** SortBy rearranges its input: same elements, same multiplicities. */
  lemma {:induction false} SortByPermutes<T>(s: seq<T>, less: (T, T) -> bool)
    ensures multiset(SortBy(s, less)) == multiset(s)
    ensures |SortBy(s, less)| == |s|
    decreases |s|
  {
    if s != [] {
      var s' := s[..|s| - 1];
      SortByPermutes(s', less);
      InsertByPermutes(SortBy(s', less), s[|s| - 1], less);
      assert s == s' + [s[|s| - 1]];
    }
    assert |multiset(SortBy(s, less))| == |multiset(s)|;
  }

  lemma {:induction false} InsertBySorted<T(!new)>(r: seq<T>, x: T, less: (T, T) -> bool)
    requires StrictWeakOrder(less) && SortedBy(r, less)
    ensures SortedBy(InsertBy(r, x, less), less)
    decreases |r|
  {
    if r == [] {
    } else {
      var last := r[|r| - 1];
      var r' := r[..|r| - 1];
      if less(x, last) {
        InsertBySorted(r', x, less);
        InsertByPermutes(r', x, less);
        var t' := InsertBy(r', x, less);
        forall i | 0 <= i < |t'|
          ensures !less(last, t'[i])
        {
          assert t'[i] in multiset(t');
          if t'[i] != x {
            assert t'[i] in multiset(r');
            var k :| 0 <= k < |r'| && r'[k] == t'[i];
            assert r[k] == t'[i];
          }
        }
      } else {
        forall i | 0 <= i < |r|
          ensures !less(x, r[i])
        {
          if i < |r| - 1 {
            assert !less(last, r[i]);
          }
        }
      }
    }
  }

  /** SortBy orders its result whenever `less` is a strict weak order. */
  lemma {:induction false} SortBySorted<T(!new)>(s: seq<T>, less: (T, T) -> bool)
    requires StrictWeakOrder(less)
    ensures SortedBy(SortBy(s, less), less)
    decreases |s|
  {
    if s != [] {
      SortBySorted(s[..|s| - 1], less);
      InsertBySorted(SortBy(s[..|s| - 1], less), s[|s| - 1], less);
    }
  }

  /** The elements of `s` in class `k`, in their order in `s`. */
  ghost function Select<T, K>(s: seq<T>, cls: T -> K, k: K): seq<T> {
    if s == [] then []
    else Select(s[..|s| - 1], cls, k) + (if cls(s[|s| - 1]) == k then [s[|s| - 1]] else [])
  }

  lemma {:induction false} SelectAppend<T, K>(a: seq<T>, b: seq<T>, cls: T -> K, k: K)
    ensures Select(a + b, cls, k) == Select(a, cls, k) + Select(b, cls, k)
    decreases |b|
  {
    if b == [] {
      assert a + b == a;
    } else {
      var b' := b[..|b| - 1];
      assert (a + b)[..|a + b| - 1] == a + b';
      SelectAppend(a, b', cls, k);
    }
  }

  lemma {:induction false} InsertByStable<T, K>(r: seq<T>, x: T, less: (T, T) -> bool, cls: T -> K, k: K)
    requires forall y, z :: less(y, z) ==> cls(y) != cls(z)
    ensures Select(InsertBy(r, x, less), cls, k) == Select(r, cls, k) + Select([x], cls, k)
    decreases |r|
  {
    if r == [] {
      assert InsertBy(r, x, less) == [x];
    } else {
      var last := r[|r| - 1];
      var r' := r[..|r| - 1];
      if less(x, last) {
        InsertByStable(r', x, less, cls, k);
        SelectAppend(InsertBy(r', x, less), [last], cls, k);
        assert Select(r, cls, k) == Select(r', cls, k) + Select([last], cls, k) by {
          assert r == r' + [last];
          SelectAppend(r', [last], cls, k);
        }
      } else {
        SelectAppend(r, [x], cls, k);
      }
    }
  }

  /**
   * SortBy is stable: when `less` never orders two elements of one class,
   * every class keeps its order of `s`.
   */
  lemma {:induction false} SortByStable<T, K>(s: seq<T>, less: (T, T) -> bool, cls: T -> K, k: K)
    requires forall y, z :: less(y, z) ==> cls(y) != cls(z)
    ensures Select(SortBy(s, less), cls, k) == Select(s, cls, k)
    decreases |s|
  {
    if s != [] {
      var s' := s[..|s| - 1];
      SortByStable(s', less, cls, k);
      InsertByStable(SortBy(s', less), s[|s| - 1], less, cls, k);
      assert s == s' + [s[|s| - 1]];
      SelectAppend(s', [s[|s| - 1]], cls, k);
    }
  }

  /** Where InsertBy puts `x`: after `p[..j]`, when `x` must precede all of `p[j..]` and not `p[j - 1]`. */
  lemma {:induction false} InsertByAt<T>(p: seq<T>, x: T, j: nat, less: (T, T) -> bool)
    requires j <= |p| && (j == 0 || !less(x, p[j - 1]))
    requires forall k :: j <= k < |p| ==> less(x, p[k])
    ensures InsertBy(p, x, less) == p[..j] + [x] + p[j..]
    decreases |p|
  {
    if j == |p| {
      assert p[..j] == p && p[j..] == [];
    } else {
      var p' := p[..|p| - 1];
      assert less(x, p[|p| - 1]);
      assert InsertBy(p, x, less) == InsertBy(p', x, less) + [p[|p| - 1]];
      assert forall k :: j <= k < |p'| ==> p'[k] == p[k];
      InsertByAt(p', x, j, less);
      assert p'[..j] == p[..j];
      assert p[j..] == p'[j..] + [p[|p| - 1]];
    }
  }

  lemma SortBySingleton<T>(x: T, less: (T, T) -> bool)
    ensures SortBy([x], less) == [x]
  {
    assert [x][..0] == [];
  }

  lemma SortByPrefix<T>(s: seq<T>, i: nat, less: (T, T) -> bool)
    requires i < |s|
    ensures SortBy(s[..i + 1], less) == InsertBy(SortBy(s[..i], less), s[i], less)
  {
    assert s[..i + 1][..i] == s[..i];
  }

  /** Moves `a[i]` left into the sorted prefix `a[..i]`, as InsertBy does. */
  method InsertInPlace<T>(a: array<T>, i: nat, less: (T, T) -> bool)
    requires i < a.Length
    modifies a
    ensures a[..i + 1] == InsertBy(old(a[..i]), old(a[i]), less)
    ensures a[i + 1..] == old(a[i + 1..])
  {
    ghost var p := a[..i];
    ghost var x := a[i];
    var j := i;
    while j > 0 && less(a[j], a[j - 1])
      invariant 0 <= j <= i
      invariant forall k :: 0 <= k < j ==> a[k] == p[k]
      invariant a[j] == x
      invariant forall k :: j < k <= i ==> a[k] == p[k - 1]
      invariant forall k :: i < k < a.Length ==> a[k] == old(a[k])
      invariant forall k :: j <= k < i ==> less(x, p[k])
    {
      a[j - 1], a[j] := a[j], a[j - 1];
      j := j - 1;
    }
    InsertByAt(p, x, j, less);
    assert a[..i + 1] == p[..j] + [x] + p[j..];
    assert a[i + 1..] == old(a[i + 1..]);
  }

  /** Sorts `a` in place exactly as SortBy sorts its contents. */
  method SortInPlace<T>(a: array<T>, less: (T, T) -> bool)
    modifies a
    ensures a[..] == SortBy(old(a[..]), less)
  {
    ghost var s := a[..];
    for i := 0 to a.Length
      invariant a[..i] == SortBy(s[..i], less)
      invariant a[i..] == s[i..]
    {
      SortByPrefix(s, i, less);
      InsertInPlace(a, i, less);
    }
    assert a[..] == a[..a.Length];
    assert s == s[..a.Length];
  }
}

=== FILE: wrappers.dfy ===
/** Option and Result: Go's nil results and (value, error) pairs. */
module Wrappers {

  datatype Option<+T> = None | Some(value: T)

  datatype Result<+T, +E> = Success(value: T) | Failure(error: E)
}
